=== FILE: README.md ===
# Photography portfolio site: store and request decisions in Dafny

This project models the server side of a photography portfolio site and the
client-side decisions around it. The server keeps galleries, photos and admin
settings in an in-memory store (`MemStorage`) and exposes them through REST
handlers. The admin panel derives a URL slug and a display order when it
creates a gallery. The home page lays the galleries out in rows of three.

Every store operation is a pure function from a store to a new store and a
result. Fresh ids (`randomUUID`) and clock readings (`Date.now()`,
`new Date()`) are parameters. The three list operations enumerate a map, so
they are methods. The handlers are functions from the store and the request's
parameters to a status code and the new store.

| file | module | models |
|---|---|---|
| `optional.dfy` | `Optional` | `undefined` / missing properties as `Option` |
| `schema.dfy` | `Schema` | entity, insert and partial shapes; body validation; shallow merge |
| `listing.dfy` | `Listing` | map enumeration and the stable sort by `order` |
| `storage.dfy` | `Storage` | `MemStorage`, including its constructor seed |
| `routes.dfy` | `Routes` | the REST handlers' status selection and effects |
| `slug.dfy` | `Slug` | `toLowerCase` / `\s+` → `-` / `[^a-z0-9-]` removal, and `trim` |
| `gallery_management.dfy` | `GalleryManagement` | the admin panel's create-gallery action |
| `gallery_grid.dfy` | `GalleryGrid` | rows of three, placeholders, tiles |

The `Gallery` record carries both the declared `coverImage` column and the
`heroImage` property. The hero-image handler writes `heroImage` and the home
page reads it.

Where the documented behaviour and the code differ, the model follows the code:

- An upload whose files are all filtered out answers 201 with an empty list.
  The "No files uploaded" guard only fires when `req.files` is missing or is
  not an array.
- Deleting a gallery that does not exist still runs the photo cascade.
- The cascade deletes photos by their record's `id` property. The declared cascade deletes by reference. See "## Findings".
- There is no reorder handler and no homepage-photo handler in the server
  routes, so neither is modelled.

## Model

| member | source | states |
|---|---|---|
| Schema.ParseInsertGallery | shared/schema.ts:6-14 | a gallery body is accepted iff it has `name` and `slug`; the accepted shape carries the body's fields unchanged |
| Schema.MergeGallery | server/storage.ts:85 | `{...gallery, ...updates}`: each supplied property wins, every other property keeps its old value, `id` included |
| Schema.MergePhoto | server/storage.ts:124 | `{...photo, ...updates}`: each supplied property wins, every other property keeps its old value, `id` included |
| Schema.MergeEmptyIsIdentity | server/storage.ts:81-88 | an update with no properties leaves a gallery or photo unchanged |
| Schema.MergeIdempotent | server/storage.ts:120-127 | applying the same update twice equals applying it once |
| Listing.SortBy | server/storage.ts:58 | the sorted list is a permutation of the input and is non-decreasing by the sort key |
| Listing.ValueCounts | server/storage.ts:57-59 | read off along an enumeration of a map's keys, each value occurs once per key that holds it |
| Storage.OrderOrZero | server/storage.ts:74 | `order \|\| 0`: the stored order is the supplied one, or 0 when none is supplied |
| Storage.GetGallery | server/storage.ts:61-63 | a gallery is found iff its id is a key of the store, and it is the stored record |
| Storage.NewGallery | server/storage.ts:71-76 | a created gallery has the fresh id, the inserted fields, no hero image, the defaulted order and the creation time |
| Storage.CreateGallery | server/storage.ts:69-79 | creation adds exactly one gallery, under the fresh id; every other gallery, every photo and every setting is unchanged |
| Storage.UpdateGallery | server/storage.ts:81-88 | an absent id gives no result and no change; otherwise the merged record is stored under the same key and no other entry changes |
| Storage.UpdateCanBreakKeying | server/storage.ts:81-88 | an update that supplies a different `id` leaves a record whose `id` differs from its key, so "id equals key" is not preserved |
| Storage.EmptyGalleryPatchKeepsStore | server/storage.ts:81-88 | an update with no properties leaves the store unchanged |
| Storage.DeleteGalleryAsWritten | server/storage.ts:90-96 | the code's delete: true iff the gallery key was present; the gallery goes; a photo survives iff no photo of that gallery carries its key in its `id` property; survivors and settings are unchanged |
| Storage.CascadeMissesRekeyedPhoto | server/storage.ts:92-93 | after a photo's `id` property was rewritten, the code's cascade keeps that photo and deletes a photo of another gallery |
| Storage.DeleteGallery | server/storage.ts:90-96 | true iff the gallery key was present; afterwards no photo has that `galleryId`; photos of other galleries and all settings are untouched; this holds even when the gallery is absent |
| Storage.DeleteGalleryAgreesWhenWellKeyed | server/storage.ts:90-96 | when every record's `id` equals its key, the code's cascade and the corrected one give the same store |
| Storage.CreateThenDeleteGallery | server/storage.ts:69-96 | deleting a just-created gallery that has no photos restores the original store |
| Storage.GetGalleries | server/storage.ts:57-59 | the listing holds each stored gallery exactly once and is sorted non-decreasing by `order` |
| Storage.GetGalleryBySlug | server/storage.ts:65-67 | no result iff no stored gallery has the slug; a result is a stored gallery with that slug |
| Storage.GetPhoto | server/storage.ts:104-106 | a photo is found iff its id is a key of the store, and it is the stored record |
| Storage.NewPhoto | server/storage.ts:110-115 | a created photo has the fresh id, the inserted fields, the defaulted order and the creation time |
| Storage.CreatePhoto | server/storage.ts:108-118 | creation adds exactly one photo, under the fresh id; everything else is unchanged |
| Storage.UpdatePhoto | server/storage.ts:120-127 | an absent id gives no result and no change; otherwise the merged record is stored under the same key and no other entry changes |
| Storage.DeletePhoto | server/storage.ts:129-131 | true iff the id was present; only that photo is removed |
| Storage.CreateThenDeletePhoto | server/storage.ts:108-131 | deleting a just-created photo restores the original store |
| Storage.UpdatePhotoOrder | server/storage.ts:133-140 | false and no change when absent; otherwise true, and only that photo's `order` changes |
| Storage.PhotoOrderIsOrderPatch | server/storage.ts:120-140 | setting a photo's order has the same effect as an update supplying only `order` |
| Storage.GetPhotosByGallery | server/storage.ts:98-102 | the listing holds exactly the photos whose `galleryId` matches, each once, sorted non-decreasing by `order` |
| Storage.GetAdminSetting | server/storage.ts:142-144 | a setting is found iff its key is stored, and it is the stored record |
| Storage.SetAdminSetting | server/storage.ts:146-156 | upsert by key: one entry per key, the count is unchanged when the key existed, an existing non-empty id is kept, a new entry or one whose stored id is empty takes the fresh id, and the value and time are the new ones |
| Storage.SetAdminSettingTwice | server/storage.ts:142-156 | two writes to one key leave one entry, which holds the latest value and the first write's id |
| Storage.DefaultOrders | server/storage.ts:44-50 | the default galleries are numbered 1 to 5 in list order |
| Storage.CreateGalleries | server/storage.ts:52-54 | the seeding loop only touches the galleries |
| Storage.CreateGalleriesKeeps | server/storage.ts:52-54 | the seeding loop keeps existing galleries and adds only the supplied ids |
| Storage.CreateGalleriesAdds | server/storage.ts:52-54 | after the seeding loop each supplied id holds the gallery built from its entry |
| Storage.CreateGalleriesSize | server/storage.ts:52-54 | the seeding loop adds one gallery per entry |
| Storage.Seed | server/storage.ts:31-55 | a new store holds only the password setting "100301", no photos, and exactly one gallery per supplied id, built from the matching default entry with its own creation time |
| Storage.SeedDefaults | server/storage.ts:31-55 | a new store holds five galleries, numbered 1 to 5 with the default slugs, each stored under its own id |
| Routes.ListGalleriesRoute | server/routes.ts:41-48 | 200 with no change; the list holds each stored gallery record as often as keys hold it (so its length is the number of galleries) and is sorted by `order` |
| Routes.GalleryBySlugRoute | server/routes.ts:50-60 | 404 iff no stored gallery has the slug; otherwise 200 with a gallery carrying it; no change |
| Routes.CreateGalleryRoute | server/routes.ts:62-70 | 400 with no change iff `name` or `slug` is missing; otherwise 201 and exactly one new gallery, carrying the body's name, slug, description and cover image, no hero image, the order defaulted to 0 and the creation time |
| Routes.DuplicateSlugAccepted | server/storage.ts:69-79 | the schema declares `slug` unique, but the store accepts two galleries with the same slug |
| Routes.UpdateGalleryRoute | server/routes.ts:72-82 | 404 with no change iff the gallery is absent; otherwise 200 with the merged record, and no other gallery changes |
| Routes.DeleteGalleryRoute | server/routes.ts:84-94 | 404 iff the gallery was absent; only that gallery goes, the other galleries, surviving photos and settings are unchanged, and on a store whose records carry their own keys exactly the gallery's photos are removed |
| Routes.DeleteGalleryRouteIntended | server/routes.ts:84-94 | with the intended cascade: 404 iff the gallery was absent; only that gallery goes, other galleries and settings are unchanged, and on every store all of its photos are removed while other photos stay unchanged |
| Routes.DeleteRouteDivergesAfterRekey | server/routes.ts:84-94 | after a photo update rewrites a photo's `id`, the handler keeps the deleted gallery's photo and removes another gallery's, where the intended cascade does the opposite |
| Routes.SetHeroImageRoute | server/routes.ts:96-118 | 404 with no change when the photo or the gallery is missing; otherwise 200, and only the gallery's `heroImage` changes, to the photo's `url` |
| Routes.HeroImageFromOtherGallery | server/routes.ts:98-114 | a photo of another gallery can become a gallery's hero image, because ownership is not checked |
| Routes.ListPhotosRoute | server/routes.ts:121-128 | 200 with no change; the list holds each of the gallery's photo records as often as keys hold it, no photo of another gallery, and is sorted by `order` |
| Routes.FileFilter | server/routes.ts:27-30 | a file is accepted iff its MIME type is image/jpeg, image/png, image/gif or image/webp |
| Routes.Accepted | server/routes.ts:27-30 | every accepted file was uploaded and passes the filter, and every uploaded file that passes is accepted |
| Routes.AcceptedCounts | server/routes.ts:27-30 | each file that passes the filter is accepted as often as it was uploaded; a rejected file not at all |
| Routes.AcceptedAppend | server/routes.ts:27-30 | filtering commutes with concatenation, so the accepted files keep their upload order |
| Routes.TooLarge | server/routes.ts:31-33 | an upload is refused for size iff some uploaded file that passes the type filter is larger than 50 MiB |
| Routes.PhotoData | server/routes.ts:146-152 | a stored file's record has the path's gallery id, the stored filename, url "/uploads/" + filename, the original name, and the clock as order |
| Routes.CreatePhotos | server/routes.ts:144-155 | the upload loop creates one photo per file, in order, and touches only the photos |
| Routes.CreatePhotosKeeps | server/routes.ts:144-155 | the upload loop keeps every existing photo and adds only the fresh ids |
| Routes.CreatePhotosAdds | server/routes.ts:144-155 | after the upload loop each fresh id holds its file's photo |
| Routes.UploadPhotosRoute | server/routes.ts:130-162 | 400 with no change iff there is no file list or an accepted file exceeds 50 MiB; otherwise 201 and exactly one photo per accepted file |
| Routes.UploadIntoMissingGallery | server/routes.ts:139-157 | uploading into a gallery id that does not exist still creates the photo |
| Routes.PlainTextCreatesNoPhoto | server/routes.ts:27-30 | a text/plain upload creates no photo record |
| Routes.UpdatePhotoRoute | server/routes.ts:164-174 | 404 with no change iff the photo is absent; otherwise 200 with the merged record |
| Routes.DeletePhotoRoute | server/routes.ts:176-195 | 404 with no change iff the photo is absent; otherwise 200 and only that photo is removed |
| Routes.DeletePhotoIgnoresUnlink | server/routes.ts:183-188 | whether the file could be removed never changes the reply |
| Routes.SetPhotoOrderRoute | server/routes.ts:197-208 | 404 with no change iff the photo is absent; otherwise 200 and only that photo's order changes |
| Routes.LoginRoute | server/routes.ts:211-225 | 200 iff a password setting exists and equals the submitted password; otherwise 401; the store never changes |
| Routes.ChangePasswordRoute | server/routes.ts:227-239 | 400 with no change iff the new password is missing or shorter than 6; otherwise 200, and the password setting holds it while other settings are unchanged |
| Routes.ChangePasswordThenLogin | server/routes.ts:211-239 | after a successful change, the new password logs in and any other password is refused |
| Routes.SeedLogin | server/storage.ts:36-37 | a new store accepts "100301" and refuses any other password |
| Slug.LowerChar | client/src/components/admin/gallery-management.tsx:64 | an upper-case ASCII letter maps to its lower-case letter; every other character is unchanged |
| Slug.ToLower | client/src/components/admin/gallery-management.tsx:64 | lower-casing keeps the length and leaves no upper-case ASCII letter |
| Slug.CollapseSpaces | client/src/components/admin/gallery-management.tsx:64 | the result contains no whitespace and is no longer than the input |
| Slug.CollapseRun | client/src/components/admin/gallery-management.tsx:64 | a non-empty run made only of whitespace becomes exactly one hyphen |
| Slug.CollapseSplit | client/src/components/admin/gallery-management.tsx:64 | collapsing distributes over a cut that does not fall inside a whitespace run, so each run's hyphen stands where the run stood and every other character stays in place |
| Slug.CollapseAddsOneHyphenPerRun | client/src/components/admin/gallery-management.tsx:64 | the hyphens after collapsing are the input's hyphens plus one per maximal whitespace run |
| Slug.CollapseKeepsSolid | client/src/components/admin/gallery-management.tsx:64 | collapsing keeps every non-whitespace, non-hyphen character, in order |
| Slug.StripInvalid | client/src/components/admin/gallery-management.tsx:64 | only `[a-z0-9-]` characters remain, and each of them occurs as often as in the input |
| Slug.StripInvalidAppend | client/src/components/admin/gallery-management.tsx:64 | removal commutes with concatenation, so the kept characters stay in their original order |
| Slug.Slugify | client/src/components/admin/gallery-management.tsx:64 | every slug character is in `[a-z0-9-]`, none is whitespace, and the slug is no longer than the name |
| Slug.SlugifyIdempotent | client/src/components/admin/gallery-management.tsx:64 | deriving a slug from a slug gives it back unchanged |
| Slug.SlugifyExample | client/src/components/admin/gallery-management.tsx:64 | the slug of "My Gallery" is "my-gallery" |
| Slug.Trim | client/src/components/admin/gallery-management.tsx:62 | trimming gives the empty string iff every character is whitespace; otherwise the result neither starts nor ends with whitespace; the result is a contiguous slice of the input with only whitespace before and after it |
| GalleryManagement.NextOrder | client/src/components/admin/gallery-management.tsx:65 | the new order is the number of listed galleries plus 1, or 1 when the list is absent |
| GalleryManagement.HandleCreateGallery | client/src/components/admin/gallery-management.tsx:61-72 | nothing is sent iff the name is blank; otherwise the body carries the untrimmed name, its slug and the next order, and no cover image |
| GalleryManagement.PanelRequestIsCreated | client/src/components/admin/gallery-management.tsx:61-72 | every body the panel sends is answered 201 and stored with the derived slug and the panel's order, with no description, cover image or hero image |
| GalleryManagement.CreateNudesExample | client/src/components/admin/gallery-management.tsx:61-72 | creating "Nudes" in an empty store gives slug "nudes" and order 1 |
| GalleryManagement.NonBlankNameEmptySlug | client/src/components/admin/gallery-management.tsx:62-64 | a non-blank name such as "!!" passes the guard but yields the empty slug |
| GalleryGrid.Slice | client/src/components/gallery-grid.tsx:38 | `slice(i, j)` clamps both bounds to the length |
| GalleryGrid.Rows | client/src/components/gallery-grid.tsx:35-40 | there are ceil(n/3) rows; each row has 1 to 3 galleries, and every row but the last has exactly 3 |
| GalleryGrid.RowsFlatten | client/src/components/gallery-grid.tsx:35-40 | concatenating the rows gives back the list in its original order |
| GalleryGrid.RowsPosition | client/src/components/gallery-grid.tsx:35-40 | the gallery at position k sits in row k/3, column k%3 |
| GalleryGrid.SplitRows | client/src/components/gallery-grid.tsx:35-40 | the component's loop builds exactly those rows; an absent or empty list gives no rows |
| GalleryGrid.TileImage | client/src/components/gallery-grid.tsx:57 | a tile shows `heroImage` when it is a non-empty string, otherwise the fixed default image |
| GalleryGrid.TileOf | client/src/components/gallery-grid.tsx:53-64 | a tile links to "/gallery/" + slug, its image's alt text is the name followed by " Photography", and its heading is the bare name |
| GalleryGrid.PlaceholderCount | client/src/components/gallery-grid.tsx:70 | a row of at most 3 galleries gets 3 minus its length in placeholders; a longer row gets none |
| GalleryGrid.RenderRow | client/src/components/gallery-grid.tsx:48-73 | a rendered row shows its galleries' tiles in order, then placeholders up to 3 cells |
| GalleryGrid.RenderGrid | client/src/components/gallery-grid.tsx:48-75 | the grid has one rendered row per row of galleries, and row k is the k-th row of galleries rendered, short rows padded with placeholders |
| GalleryGrid.GridLayout | client/src/components/gallery-grid.tsx:48-75 | every grid row has exactly 3 cells, and the k-th gallery's tile is in row k/3, column k%3 |

## Findings

| source | as written | input that shows it | evidently intended | confidence | as-written member | corrected member |
|---|---|---|---|---|---|---|
| server/storage.ts:92-93 | the cascade deletes each matching photo by its record's `id` property | set photo "p"'s `id` to "q" through the photo update route, with photo "q" in gallery "h"; deleting gallery "g" keeps "p" (still in "g") and deletes "q" | delete every photo whose `galleryId` matches, by the key it is stored under | medium, not executed | Storage.DeleteGalleryAsWritten | Storage.DeleteGallery |

`Storage.CascadeMissesRekeyedPhoto` exhibits the input above against the
as-written member. `Storage.DeleteGalleryAgreesWhenWellKeyed` shows that the two
definitions agree as long as no record's `id` was rewritten. The delete handler
`Routes.DeleteGalleryRoute` calls the store's delete as written, like the
server does. `Routes.DeleteGalleryRouteIntended` is the handler on the corrected
member. `Routes.DeleteRouteDivergesAfterRekey` shows the two handlers apart on
the input above, reached through the photo update handler.

## Left out

- HTTP plumbing is not modelled: Express routing, JSON serialisation, the response messages and the 500 answers for thrown exceptions.
- Multipart handling and disk storage are not modelled. The stored filename (clock plus a random number plus the extension) is a field of each incoming file.
- Static serving under `/uploads` is not modelled.
- `fs.unlink` is an ignored boolean parameter of the delete-photo handler.
- Upload errors other than the size limit (unexpected field, too many files) are not modelled.
- Whether the upload layer sets `req.files` to an empty list for a multipart request without accepted files is an input, not a modelled fact. The upload layer's source is not part of this model.
- `randomUUID`, `Date.now()` and `new Date()` are parameters. Freshness of ids is a precondition.
- Routes.CreatePhotos: the upload handler reads the clock twice per file, once for `order` and once in `createPhoto`. The model uses one reading for both, so it pins the two values equal, which the code does not guarantee.
- The body validator's internals are abstracted. Only a missing `name` or `slug` maps to 400. Wrong property types and unknown properties are not represented.
- Partial updates can carry only the record's own properties. A property set explicitly to `undefined`, and a non-numeric `order` sent to the order route (which would make the sort compare NaN), are not represented.
- Routes.UpdateGalleryRoute: the handler stores the request body without validation. The model's patch holds only values of the record's own types, so a body such as `{order: "x"}` and the unknown properties it may carry are not represented.
- Routes.UpdatePhotoRoute: likewise the body is stored unvalidated. The patch holds only well-typed values of the photo's own properties.
- Storage.GetGalleries: orders are integers in the model. A non-numeric `order` stored through the update handler makes the comparator yield NaN, and the sorted-by-order promise then does not hold for the code.
- Routes.ChangePasswordRoute: the new password is a string in the model. The handler does not check the type: a number such as 1 is truthy and has no `length`, so `undefined < 6` is false, and the handler stores the number and answers 200.
- Routes.LoginRoute: the submitted and stored passwords are strings in the model. The handler compares with `!==`, so after a non-string password was stored, only the same non-string value logs in.
- Routes.DeleteGalleryRoute: the removal of exactly the gallery's photos is stated only for stores whose records carry their own keys, because the code's cascade goes by the record's `id` property. `Routes.DeleteRouteDivergesAfterRekey` shows an input outside that case.
- The constructor's async seeding is modelled sequentially. Only the first gallery is created before the constructor returns, so the interleaving is not modelled.
- The database-backed storage and its declared constraints (unique slug, cascade on delete) are not part of this model. The in-memory store is the one the server uses.
- Drag-and-drop photo reordering is not modelled: it depends on a library `arrayMove`, and the reorder endpoint it calls has no handler.
- The homepage-photo endpoints have no handler, so they are not modelled.
- React rendering, toasts, query-cache invalidation and the client admin flag are not modelled, apart from the grid layout and the create-gallery decision.
- The password-change form is not modelled. Its client-side length check duplicates the server rule.
- Slug.ToLower: lower-cases ASCII letters only. JavaScript also maps U+0130 (capital I with dot) and U+212A (Kelvin sign) to characters that survive the `[a-z0-9-]` filter, so for those inputs the model's slug differs. For ASCII names the slug is exact.
- Routes.ChangePasswordRoute: the length is counted in characters. JavaScript counts UTF-16 code units, so a password with characters outside the Basic Multilingual Plane can pass the server's check with fewer than 6 characters.
- Storage.GetGalleries: does not state the relative order of galleries with equal `order`, because it depends on the map's insertion order, which the model does not record.
- Storage.GetPhotosByGallery: does not state the relative order of photos with equal `order`, for the same reason.
- Storage.GetGalleryBySlug: does not state which gallery is returned when several share a slug. The code returns the first in insertion order.
- Routes.ListGalleriesRoute: does not state the relative order of galleries with equal `order`, for the same reason as `Storage.GetGalleries`.
- Routes.ListPhotosRoute: does not state the relative order of photos with equal `order`, for the same reason as `Storage.GetPhotosByGallery`.
- Routes.SetPhotoOrderRoute: `order` is an integer in the model. JavaScript numbers are floating point, so an order such as 2.5 is stored unchanged by the code but is not represented here. The same holds for the `order` of every gallery and photo record.
- Routes.GalleryBySlugRoute: does not state which gallery is returned when several share a slug, for the same reason.

=== FILE: gallery_grid.dfy ===
/**
 * The home page's gallery grid: the gallery list is cut into rows of three,
 * each row padded with invisible placeholders so every row has three cells;
 * each gallery is a tile linking to its page.
 */
module GalleryGrid {
  import opened Optional
  import opened Schema

  const RowWidth := 3

  /** The image shown for a gallery without a hero image. */
  const DefaultImage := "https://images.unsplash.com/photo-1469334031218-e382a71b716b?ixlib=rb-4.0.3&auto=format&fit=crop&w=800&h=800"

  /** `xs.slice(i, j)` for `0 <= i <= j`: the bounds are clamped to the length. */
  function Slice<T>(xs: seq<T>, i: nat, j: nat): (r: seq<T>)
    requires i <= j
    ensures i <= |xs| ==> r == xs[i..if j <= |xs| then j else |xs|]
    ensures i > |xs| ==> r == []
  {
    var lo := if i <= |xs| then i else |xs|;
    var hi := if j <= |xs| then j else |xs|;
    xs[lo..hi]
  }

  /** The rows of the grid, as a reference definition: three items per row from the front. */
  function Rows<T>(xs: seq<T>): (rows: seq<seq<T>>)
    ensures |rows| == (|xs| + RowWidth - 1) / RowWidth
    ensures forall k :: 0 <= k < |rows| ==> 1 <= |rows[k]| <= RowWidth
    ensures forall k :: 0 <= k < |rows| - 1 ==> |rows[k]| == RowWidth
    decreases |xs|
  {
    if xs == [] then []
    else if |xs| <= RowWidth then [xs]
    else [xs[..RowWidth]] + Rows(xs[RowWidth..])
  }

  /** Concatenation of the rows. */
  function Flatten<T>(rows: seq<seq<T>>): seq<T> {
    if rows == [] then [] else rows[0] + Flatten(rows[1..])
  }

  /** Reading the rows in order gives back the list. */
  lemma {:induction false} RowsFlatten<T>(xs: seq<T>)
    ensures Flatten(Rows(xs)) == xs
    decreases |xs|
  {
    if xs != [] && |xs| > RowWidth {
      RowsFlatten(xs[RowWidth..]);
      assert Rows(xs)[1..] == Rows(xs[RowWidth..]);
      assert xs == xs[..RowWidth] + xs[RowWidth..];
    }
  }

  /** The item at position `k` sits in row `k / 3`, column `k % 3`. */
  lemma {:induction false} RowsPosition<T>(xs: seq<T>, k: nat)
    requires k < |xs|
    ensures k / RowWidth < |Rows(xs)|
    ensures k % RowWidth < |Rows(xs)[k / RowWidth]|
    ensures Rows(xs)[k / RowWidth][k % RowWidth] == xs[k]
    decreases |xs|
  {
    if |xs| > RowWidth && k >= RowWidth {
      RowsPosition(xs[RowWidth..], k - RowWidth);
      assert (k - RowWidth) / RowWidth == k / RowWidth - 1;
      assert (k - RowWidth) % RowWidth == k % RowWidth;
    }
  }

  /**
   * The component's loop: `for (i = 0; i < n; i += 3) rows.push(galleries.slice(i, i + 3))`,
   * run only when the list is present and not empty.
   */
  method SplitRows(galleries: Option<seq<Gallery>>) returns (rows: seq<seq<Gallery>>)
    ensures rows == Rows(galleries.GetOr([]))
    ensures galleries.None? || galleries.value == [] ==> rows == []
  {
    rows := [];
    if galleries.Some? && |galleries.value| > 0 {
      var xs := galleries.value;
      var i := 0;
      while i < |xs|
        invariant i % RowWidth == 0
        invariant i <= |xs| + RowWidth - 1
        invariant rows + Rows(xs[if i <= |xs| then i else |xs|..]) == Rows(xs)
        decreases |xs| - i
      {
        var next := if i + RowWidth <= |xs| then i + RowWidth else |xs|;
        assert Rows(xs[i..]) == [xs[i..next]] + Rows(xs[next..]) by {
          var rest := xs[i..];
          if |rest| <= RowWidth {
            assert next == |xs| && rest == xs[i..next];
            assert xs[next..] == [];
          } else {
            assert rest[..RowWidth] == xs[i..next];
            assert rest[RowWidth..] == xs[next..];
          }
        }
        rows := rows + [Slice(xs, i, i + RowWidth)];
        i := i + RowWidth;
      }
    }
  }

  /**
   * One grid cell: a gallery tile, or an invisible placeholder. A tile has
   * its link target, its image source, the image's alt text, and the
   * heading shown over the image on hover.
   */
  datatype Cell = Tile(href: string, image: string, alt: string, heading: string) | Placeholder

  /** `heroImage || defaultImage`: a missing, null or empty hero image falls back to the default. */
  function TileImage(g: Gallery): (r: string)
    ensures g.heroImage.Some? && g.heroImage.value != "" ==> r == g.heroImage.value
    ensures g.heroImage.None? || g.heroImage.value == "" ==> r == DefaultImage
  {
    match g.heroImage
    case Some(url) => if url != "" then url else DefaultImage
    case None => DefaultImage
  }

  /**
   * A gallery's tile: links to `/gallery/<slug>`, shows its image with the
   * alt text "<name> Photography", and is headed with the bare name.
   */
  function TileOf(g: Gallery): (c: Cell)
    ensures c.Tile? && c.href == "/gallery/" + g.slug
    ensures c.image == TileImage(g)
    ensures c.alt == g.name + " Photography"
    ensures c.heading == g.name
  {
    Tile("/gallery/" + g.slug, TileImage(g), g.name + " Photography", g.name)
  }

  /** `Array.from({length: 3 - colCount})`: a negative length gives no placeholders. */
  function PlaceholderCount(colCount: nat): (r: nat)
    ensures colCount <= RowWidth ==> colCount + r == RowWidth
    ensures colCount >= RowWidth ==> r == 0
  {
    if colCount >= RowWidth then 0 else RowWidth - colCount
  }

  /** One rendered row: its galleries' tiles, then the placeholders. */
  function RenderRow(row: seq<Gallery>): (cells: seq<Cell>)
    ensures |row| <= RowWidth ==> |cells| == RowWidth
    ensures |cells| >= |row|
    ensures forall i :: 0 <= i < |row| ==> cells[i] == TileOf(row[i])
    ensures forall i :: |row| <= i < |cells| ==> cells[i] == Placeholder
  {
    seq(|row|, i requires 0 <= i < |row| => TileOf(row[i]))
      + seq(PlaceholderCount(|row|), _ => Placeholder)
  }

  /** The whole grid. */
  function RenderGrid(galleries: Option<seq<Gallery>>): (grid: seq<seq<Cell>>)
    ensures |grid| == |Rows(galleries.GetOr([]))|
    ensures forall k :: 0 <= k < |grid| ==> grid[k] == RenderRow(Rows(galleries.GetOr([]))[k])
  {
    var rows := Rows(galleries.GetOr([]));
    seq(|rows|, k requires 0 <= k < |rows| => RenderRow(rows[k]))
  }

  /**
   * Every row of the grid has exactly three cells, and the `k`-th gallery's
   * tile is in row `k / 3`, column `k % 3`.
   */
  lemma GridLayout(gs: seq<Gallery>)
    ensures forall r :: 0 <= r < |RenderGrid(Some(gs))| ==> |RenderGrid(Some(gs))[r]| == RowWidth
    ensures forall k :: 0 <= k < |gs| ==>
      k / RowWidth < |RenderGrid(Some(gs))| && RenderGrid(Some(gs))[k / RowWidth][k % RowWidth] == TileOf(gs[k])
  {
    var grid := RenderGrid(Some(gs));
    forall k | 0 <= k < |gs|
      ensures k / RowWidth < |grid| && grid[k / RowWidth][k % RowWidth] == TileOf(gs[k])
    {
      RowsPosition(gs, k);
    }
  }
}

=== FILE: gallery_management.dfy ===
/**
 * The admin panel's "create gallery" action: a blank name does nothing;
 * otherwise the slug is derived from the name and the new gallery is
 * numbered one past the galleries currently listed.
 */
module GalleryManagement {
  import opened Optional
  import opened Schema
  import opened Storage
  import opened Routes
  import opened Slug

  /** `order = (galleries?.length || 0) + 1`: the listed count plus one. */
  function NextOrder(galleries: Option<seq<Gallery>>): (r: int)
    ensures galleries.None? ==> r == 1
    ensures galleries.Some? ==> r == |galleries.value| + 1
  {
    var count := if galleries.Some? && |galleries.value| != 0 then |galleries.value| else 0;
    count + 1
  }

  /**
   * `handleCreateGallery`: the request body sent for `name`, given the
   * currently listed galleries (`None` while the list is not loaded), or
   * `None` when the name is blank after trimming and nothing is sent.
   * The untrimmed name is sent.
   */
  function HandleCreateGallery(name: string, galleries: Option<seq<Gallery>>): (r: Option<GalleryBody>)
    ensures r.None? <==> forall i :: 0 <= i < |name| ==> IsSpace(name[i])
    ensures r.Some? ==>
      && r.value.name == Some(name)
      && r.value.slug == Some(Slugify(name))
      && r.value.description == None
      && r.value.coverImage == None
      && r.value.order == Some(NextOrder(galleries))
  {
    if Trim(name) == [] then None
    else Some(GalleryBody(Some(name), Some(Slugify(name)), None, None, Some(NextOrder(galleries))))
  }

  /**
   * Every body the panel sends passes the server's validation: the server
   * answers 201 and stores the gallery with the derived slug and with the
   * order the panel computed.
   */
  lemma PanelRequestIsCreated(s: Store, name: string, galleries: Option<seq<Gallery>>, id: Id, now: Timestamp)
    requires id !in s.galleries
    requires HandleCreateGallery(name, galleries).Some?
    ensures var r := CreateGalleryRoute(s, HandleCreateGallery(name, galleries).value, id, now);
      && r.status == Created
      && r.store.galleries[id].name == name
      && r.store.galleries[id].slug == Slugify(name)
      && r.store.galleries[id].order == NextOrder(galleries)
      && r.store.galleries[id].description == None
      && r.store.galleries[id].coverImage == None
      && r.store.galleries[id].heroImage == None
  {
  }

  /** Creating "Nudes" in an empty store gives slug "nudes" and order 1. */
  lemma CreateNudesExample(id: Id, now: Timestamp)
    ensures var body := HandleCreateGallery("Nudes", Some([]));
      && body.Some?
      && var r := CreateGalleryRoute(EmptyStore, body.value, id, now);
      && r.status == Created
      && r.body.Some? && r.body.value.slug == "nudes" && r.body.value.order == 1
  {
    assert !IsSpace("Nudes"[0]);
    NudesSlug();
  }

  /** The slug of "Nudes" is "nudes". */
  lemma NudesSlug()
    ensures Slugify("Nudes") == "nudes"
  {
    var name := "Nudes";
    var lower := ToLower(name);
    assert lower == "nudes" by {
      forall i | 0 <= i < 5 ensures lower[i] == "nudes"[i] {
        assert lower[i] == LowerChar(name[i]);
      }
    }
    assert forall i :: 0 <= i < |lower| ==> !IsSpace(lower[i]);
    CollapseNoSpaceIsIdentity(lower);
    assert forall i :: 0 <= i < |lower| ==> IsSlugChar(lower[i]);
    StripValidIsIdentity(lower);
  }

  /** A name that is not blank can still yield an empty slug. */
  lemma NonBlankNameEmptySlug()
    ensures var body := HandleCreateGallery("!!", None);
      body.Some? && body.value.slug == Some("")
  {
    var name := "!!";
    assert !IsSpace(name[0]);
    var lower := ToLower(name);
    assert lower == name by {
      forall i | 0 <= i < 2 ensures lower[i] == name[i] {
        assert lower[i] == LowerChar(name[i]);
      }
    }
    assert forall i :: 0 <= i < |name| ==> !IsSpace(name[i]);
    CollapseNoSpaceIsIdentity(name);
    assert !IsSlugChar(name[0]) && name[1..] == "!";
    assert StripInvalid(name) == StripInvalid("!");
    assert !IsSlugChar("!"[0]);
  }
}

=== FILE: listing.dfy ===
/**
 * Sequence helpers behind the store's list operations: turning a map's key
 * set into a sequence (the model's stand-in for `Array.from(map.values())`),
 * and the sort by a numeric key that `Array.prototype.sort` performs with the
 * comparator `(a, b) => a.order - b.order`.
 */
module Listing {

  /** No element occurs twice. */
  predicate Distinct<T(==)>(s: seq<T>) {
    forall i, j :: 0 <= i < j < |s| ==> s[i] != s[j]
  }

  /** `ks` lists every key of `m` exactly once. */
  ghost predicate Enumerates<K, V>(ks: seq<K>, m: map<K, V>) {
    && Distinct(ks)
    && (forall k :: k in ks ==> k in m)
    && (forall k :: k in m ==> k in ks)
  }

  /** `xs` is non-decreasing under `key`. */
  ghost predicate SortedBy<T>(xs: seq<T>, key: T -> int) {
    forall i, j :: 0 <= i < j < |xs| ==> key(xs[i]) <= key(xs[j])
  }

  /**
   * Lists the keys of `m`, each once. The order is left open: a JavaScript
   * `Map` iterates in insertion order, which the model does not record.
   */
  method EnumerateKeys<K, V>(m: map<K, V>) returns (ks: seq<K>)
    ensures Enumerates(ks, m)
    ensures |ks| == |m|
  {
    ks := [];
    var rest := m.Keys;
    while rest != {}
      invariant rest <= m.Keys
      invariant forall k :: k in ks ==> k !in rest
      invariant forall k :: k in m ==> k in ks || k in rest
      invariant forall k :: k in ks ==> k in m
      invariant Distinct(ks)
      invariant |ks| + |rest| == |m|
      decreases rest
    {
      var k :| k in rest;
      ks := ks + [k];
      rest := rest - {k};
    }
  }

  /** Keeps the keys whose entry satisfies `p`, in their original order. */
  function FilterKeys<K, V>(ks: seq<K>, m: map<K, V>, p: V -> bool): (r: seq<K>)
    requires forall k :: k in ks ==> k in m
    ensures forall k :: k in r ==> k in ks && p(m[k])
    ensures forall k :: k in ks && p(m[k]) ==> k in r
    ensures Distinct(ks) ==> Distinct(r)
    ensures |r| <= |ks|
  {
    if ks == [] then []
    else
      var rest := FilterKeys(ks[1..], m, p);
      if p(m[ks[0]]) then [ks[0]] + rest else rest
  }

  /**
   * Inserts `x` into the sorted `xs` in front of the first element whose key
   * is not smaller. `x` came earlier in the input than every element of `xs`,
   * so going in front of equal keys keeps the sort stable.
   */
  function Insert<T>(x: T, xs: seq<T>, key: T -> int): (r: seq<T>)
    ensures multiset(r) == multiset(xs) + multiset{x}
    ensures |r| == |xs| + 1
  {
    if xs == [] || key(x) <= key(xs[0]) then
      [x] + xs
    else
      assert xs == [xs[0]] + xs[1..];
      [xs[0]] + Insert(x, xs[1..], key)
  }

  /** Insertion keeps a sorted sequence sorted. */
  lemma {:induction false} InsertSorted<T>(x: T, xs: seq<T>, key: T -> int)
    requires SortedBy(xs, key)
    ensures SortedBy(Insert(x, xs, key), key)
  {
    if xs != [] && key(x) > key(xs[0]) {
      var rest := Insert(x, xs[1..], key);
      assert xs == [xs[0]] + xs[1..];
      InsertSorted(x, xs[1..], key);
      forall i | 0 <= i < |rest| ensures key(xs[0]) <= key(rest[i]) {
        assert rest[i] in multiset(xs[1..]) + multiset{x};
        if rest[i] != x {
          var j :| 0 <= j < |xs[1..]| && xs[1..][j] == rest[i];
          assert xs[j + 1] == rest[i];
        }
      }
    }
  }

  /** Insertion sort: a permutation of `xs`, non-decreasing under `key`. */
  function SortBy<T>(xs: seq<T>, key: T -> int): (r: seq<T>)
    ensures SortedBy(r, key)
    ensures multiset(r) == multiset(xs)
    ensures |r| == |xs|
  {
    if xs == [] then []
    else
      assert xs == [xs[0]] + xs[1..];
      var rest := SortBy(xs[1..], key);
      InsertSorted(xs[0], rest, key);
      Insert(xs[0], rest, key)
  }

  /** A distinct sequence holds each element at most once. */
  lemma {:induction false} DistinctCountsAtMostOne<T>(s: seq<T>, x: T)
    requires Distinct(s)
    ensures multiset(s)[x] <= 1
  {
    if s != [] {
      assert s == [s[0]] + s[1..];
      assert Distinct(s[1..]);
      DistinctCountsAtMostOne(s[1..], x);
      if s[0] == x {
        assert x !in s[1..];
        assert multiset(s[1..])[x] == 0;
      }
    }
  }

  /** A distinct sequence has as many elements as its set of elements. */
  lemma {:induction false} DistinctSetSize<T>(s: seq<T>)
    requires Distinct(s)
    ensures |set x | x in s| == |s|
  {
    if s != [] {
      DistinctSetSize(s[1..]);
      assert (set x | x in s) == {s[0]} + (set x | x in s[1..]);
      assert s[0] !in s[1..];
    }
  }

  /** The keys of `m` whose entry is `v`. */
  ghost function KeysHolding<K, V>(m: map<K, V>, v: V): set<K> {
    set k | k in m && m[k] == v
  }

  /** The keys among `ks` whose entry in `m` is `v`. */
  ghost function HoldingAmong<K, V>(ks: seq<K>, m: map<K, V>, v: V): set<K>
    requires forall k :: k in ks ==> k in m
  {
    set k | k in ks && m[k] == v
  }

  /** Splitting off the first key splits off at most that key. */
  lemma HoldingAmongSplit<K, V>(ks: seq<K>, m: map<K, V>, v: V)
    requires ks != [] && Distinct(ks)
    requires forall k :: k in ks ==> k in m
    ensures |HoldingAmong(ks, m, v)| == |HoldingAmong(ks[1..], m, v)| + if m[ks[0]] == v then 1 else 0
  {
    var k0, rest := ks[0], ks[1..];
    var a, b := HoldingAmong(ks, m, v), HoldingAmong(rest, m, v);
    assert k0 !in rest;
    forall k | k in a && k != k0 ensures k in b {
      var i :| 0 <= i < |ks| && ks[i] == k;
      assert rest[i - 1] == k;
    }
    forall k | k in b ensures k in a {
      var i :| 0 <= i < |rest| && rest[i] == k;
      assert ks[i + 1] == k;
    }
    var c := if m[k0] == v then b + {k0} else b;
    assert a == c;
  }

  /** Read off at distinct keys, a value occurs once per key that holds it. */
  lemma {:induction false} CountsAmong<K, V>(ks: seq<K>, vs: seq<V>, m: map<K, V>, v: V)
    requires Distinct(ks)
    requires |vs| == |ks|
    requires forall k :: k in ks ==> k in m
    requires forall i :: 0 <= i < |ks| ==> vs[i] == m[ks[i]]
    ensures multiset(vs)[v] == |HoldingAmong(ks, m, v)|
  {
    if ks != [] {
      assert Distinct(ks[1..]);
      CountsAmong(ks[1..], vs[1..], m, v);
      HoldingAmongSplit(ks, m, v);
      assert vs == [vs[0]] + vs[1..];
    }
  }

  /**
   * Read off along an enumeration of `m`'s keys, a value occurs once per key
   * that holds it, so two keys holding equal records list that record twice.
   */
  lemma ValueCounts<K, V>(ks: seq<K>, vs: seq<V>, m: map<K, V>, v: V)
    requires Distinct(ks)
    requires |vs| == |ks|
    requires forall k :: k in ks ==> k in m
    requires forall k :: k in m ==> k in ks
    requires forall i :: 0 <= i < |ks| ==> vs[i] == m[ks[i]]
    ensures multiset(vs)[v] == |KeysHolding(m, v)|
  {
    CountsAmong(ks, vs, m, v);
    assert HoldingAmong(ks, m, v) == KeysHolding(m, v);
  }

  /** A permutation of a distinct sequence is distinct. */
  lemma PermutationKeepsDistinct<T>(a: seq<T>, b: seq<T>)
    requires multiset(a) == multiset(b)
    requires Distinct(b)
    ensures Distinct(a)
  {
    forall i, j | 0 <= i < j < |a| ensures a[i] != a[j] {
      if a[i] == a[j] {
        var x := a[i];
        assert a == a[..j] + [a[j]] + a[j+1..];
        assert x in a[..j];
        assert multiset(a[..j])[x] >= 1;
        assert multiset(a)[x] >= 2;
        DistinctCountsAtMostOne(b, x);
        assert false;
      }
    }
  }

  /** The entries of `m` at the keys `ks`, in that order. */
  function ValuesAt<K, V>(ks: seq<K>, m: map<K, V>): (r: seq<V>)
    requires forall k :: k in ks ==> k in m
    ensures |r| == |ks|
    ensures forall i :: 0 <= i < |ks| ==> r[i] == m[ks[i]]
  {
    seq(|ks|, i requires 0 <= i < |ks| => m[ks[i]])
  }

  /**
   * Reorders the keys `ks` so that their entries in `m` are non-decreasing
   * under `key`: the same keys, each as often as before.
   */
  function SortKeysBy<K, V>(ks: seq<K>, m: map<K, V>, key: V -> int): (r: seq<K>)
    requires forall k :: k in ks ==> k in m
    ensures |r| == |ks|
    ensures forall k :: k in r ==> k in ks
    ensures forall k :: k in ks ==> k in r
    ensures Distinct(ks) ==> Distinct(r)
    ensures forall k :: k in r ==> k in m
    ensures SortedBy(ValuesAt(r, m), key)
  {
    var f := (k: K) => if k in m then key(m[k]) else 0;
    var sorted := SortBy(ks, f);
    assert forall k :: k in sorted ==> k in ks by {
      forall k | k in sorted ensures k in ks {
        assert k in multiset(sorted);
      }
    }
    assert forall k :: k in ks ==> k in sorted by {
      forall k | k in ks ensures k in sorted {
        assert k in multiset(ks);
      }
    }
    assert Distinct(ks) ==> Distinct(sorted) by {
      if Distinct(ks) {
        PermutationKeepsDistinct(sorted, ks);
      }
    }
    assert SortedBy(ValuesAt(sorted, m), key) by {
      var vs := ValuesAt(sorted, m);
      forall i, j | 0 <= i < j < |vs| ensures key(vs[i]) <= key(vs[j]) {
        assert f(sorted[i]) <= f(sorted[j]);
      }
    }
    sorted
  }
}

=== FILE: optional.dfy ===
/** Optional values: a JavaScript `undefined` (or missing property) is `None`. */
module Optional {

  datatype Option<+T> = None | Some(value: T) {

    /** The wrapped value, or `default` when absent (the `x ?? default` idiom). */
    function GetOr(default: T): T {
      match this
      case Some(v) => v
      case None => default
    }
  }
}

=== FILE: routes.dfy ===
/**
 * The REST handlers' decisions: which status a request gets and what it does
 * to the store. Each handler is a function from the store and the request's
 * parameters to a reply; HTTP plumbing, file-system effects and the 500
 * answers for thrown exceptions are outside the model.
 */
module Routes {
  import opened Optional
  import opened Schema
  import opened Listing
  import opened Storage

  const OK := 200
  const Created := 201
  const BadRequest := 400
  const Unauthorized := 401
  const NotFound := 404

  /** A reply that may carry a record (or list) as its JSON body. */
  datatype Reply<T> = Reply(status: int, store: Store, body: Option<T>)

  /** A reply whose body is only a message. */
  datatype Answer = Answer(status: int, store: Store)

  // ---------------------------------------------------------------- galleries

  /** GET /api/galleries: always 200 with the sorted listing. */
  method ListGalleriesRoute(s: Store) returns (r: Reply<seq<Gallery>>)
    ensures r.status == OK && r.store == s && r.body.Some?
    ensures |r.body.value| == |s.galleries|
    ensures forall g :: g in r.body.value ==> g in s.galleries.Values
    ensures forall g :: g in s.galleries.Values ==> g in r.body.value
    ensures forall g :: multiset(r.body.value)[g] == |KeysHolding(s.galleries, g)|
    ensures SortedBy(r.body.value, (g: Gallery) => g.order)
  {
    var list, ks := GetGalleries(s);
    forall g | g in s.galleries.Values ensures g in list {
      var k :| k in s.galleries && s.galleries[k] == g;
      var i :| 0 <= i < |ks| && ks[i] == k;
      assert list[i] == g;
    }
    forall g ensures multiset(list)[g] == |KeysHolding(s.galleries, g)| {
      ValueCounts(ks, list, s.galleries, g);
    }
    r := Reply(OK, s, Some(list));
  }

  /** GET /api/galleries/:slug: 404 exactly when no stored gallery has the slug. */
  method GalleryBySlugRoute(s: Store, slug: string) returns (r: Reply<Gallery>)
    ensures r.store == s
    ensures r.status == NotFound <==> forall k :: k in s.galleries ==> s.galleries[k].slug != slug
    ensures r.status == OK || r.status == NotFound
    ensures r.status == OK ==> r.body.Some? && r.body.value.slug == slug && r.body.value in s.galleries.Values
  {
    var g := GetGalleryBySlug(s, slug);
    if g.None? {
      return Reply(NotFound, s, None);
    }
    return Reply(OK, s, g);
  }

  /**
   * POST /api/galleries: 400 when the body lacks a required column, otherwise
   * 201 with the created gallery under the fresh id `id`.
   */
  function CreateGalleryRoute(s: Store, body: GalleryBody, id: Id, now: Timestamp): (r: Reply<Gallery>)
    requires id !in s.galleries
    ensures r.status == BadRequest <==> body.name.None? || body.slug.None?
    ensures r.status == BadRequest || r.status == Created
    ensures r.status == BadRequest ==> r.store == s && r.body.None?
    ensures r.status == Created ==>
      && r.body.Some?
      && r.body.value.id == id
      && r.body.value.name == body.name.value
      && r.body.value.slug == body.slug.value
      && r.body.value.order == body.order.GetOr(0)
      && r.body.value.description == body.description
      && r.body.value.coverImage == body.coverImage
      && r.body.value.heroImage == None
      && r.body.value.createdAt == Some(now)
      && r.store.galleries.Keys == s.galleries.Keys + {id}
      && r.store.galleries[id] == r.body.value
      && (forall k :: k in s.galleries ==> r.store.galleries[k] == s.galleries[k])
      && r.store.photos == s.photos && r.store.settings == s.settings
  {
    match ParseInsertGallery(body)
    case None => Reply(BadRequest, s, None)
    case Some(ins) =>
      var (s', g) := CreateGallery(s, ins, id, now);
      Reply(Created, s', Some(g))
  }

  /**
   * The store does not enforce slug uniqueness: posting the same body twice
   * yields two galleries with one slug.
   */
  lemma DuplicateSlugAccepted(s: Store, body: GalleryBody, id1: Id, id2: Id, now: Timestamp)
    requires id1 !in s.galleries && id2 !in s.galleries && id1 != id2
    requires body.name.Some? && body.slug.Some?
    ensures var r1 := CreateGalleryRoute(s, body, id1, now);
      var r2 := CreateGalleryRoute(r1.store, body, id2, now);
      && r1.status == Created && r2.status == Created
      && r2.store.galleries[id1].slug == r2.store.galleries[id2].slug == body.slug.value
  {
  }

  /** PUT /api/galleries/:id: 404 and no change when absent, else 200 with the merged record. */
  function UpdateGalleryRoute(s: Store, id: Id, p: GalleryPatch): (r: Reply<Gallery>)
    ensures r.status == NotFound <==> id !in s.galleries
    ensures r.status == OK || r.status == NotFound
    ensures r.status == NotFound ==> r.store == s && r.body.None?
    ensures r.status == OK ==>
      && r.body == Some(MergeGallery(s.galleries[id], p))
      && r.store.galleries.Keys == s.galleries.Keys
      && r.store.galleries[id] == r.body.value
      && (forall k :: k in s.galleries && k != id ==> r.store.galleries[k] == s.galleries[k])
      && r.store.photos == s.photos && r.store.settings == s.settings
  {
    var (s', g) := UpdateGallery(s, id, p);
    if g.None? then Reply(NotFound, s', None) else Reply(OK, s', g)
  }

  /**
   * DELETE /api/galleries/:id: 404 exactly when the gallery was absent. The
   * handler calls the store's delete as written, so the cascade removes
   * photos by their record's `id` property. The cascade runs either way.
   * While every record's `id` equals its key, that removes exactly the
   * gallery's photos, even on a 404.
   */
  function DeleteGalleryRoute(s: Store, id: Id): (r: Answer)
    ensures r.status == NotFound <==> id !in s.galleries
    ensures r.status == OK || r.status == NotFound
    ensures r.store.galleries.Keys == s.galleries.Keys - {id}
    ensures forall k :: k in r.store.galleries ==> r.store.galleries[k] == s.galleries[k]
    ensures forall k :: k in r.store.photos ==> k in s.photos && r.store.photos[k] == s.photos[k]
    ensures r.store.settings == s.settings
    ensures WellKeyed(s) ==>
      && (forall k :: k in r.store.photos ==> r.store.photos[k].galleryId != id)
      && (forall k :: k in s.photos && s.photos[k].galleryId != id ==> k in r.store.photos)
  {
    var (s', found) := DeleteGalleryAsWritten(s, id);
    assert WellKeyed(s) ==> s' == DeleteGallery(s, id).0 by {
      if WellKeyed(s) {
        DeleteGalleryAgreesWhenWellKeyed(s, id);
      }
    }
    if found then Answer(OK, s') else Answer(NotFound, s')
  }

  /**
   * The delete handler with the cascade the schema declares: every photo of
   * the gallery goes, by key, on every store.
   */
  function DeleteGalleryRouteIntended(s: Store, id: Id): (r: Answer)
    ensures r.status == NotFound <==> id !in s.galleries
    ensures r.status == OK || r.status == NotFound
    ensures r.store.galleries.Keys == s.galleries.Keys - {id}
    ensures forall k :: k in r.store.galleries ==> r.store.galleries[k] == s.galleries[k]
    ensures forall k :: k in r.store.photos ==> r.store.photos[k].galleryId != id
    ensures forall k :: k in r.store.photos ==> k in s.photos && r.store.photos[k] == s.photos[k]
    ensures forall k :: k in s.photos && s.photos[k].galleryId != id ==> k in r.store.photos
    ensures r.store.settings == s.settings
  {
    var (s', found) := DeleteGallery(s, id);
    if found then Answer(OK, s') else Answer(NotFound, s')
  }

  /**
   * The handler as written and the intended one can answer differently
   * once a photo update has rewritten a photo's `id`: the code keeps the
   * deleted gallery's photo and removes another gallery's.
   */
  lemma DeleteRouteDivergesAfterRekey()
    ensures var g := Gallery("g", "G", "g", None, None, None, 0, None);
      var p := Photo("p", "g", "p.jpg", "p.jpg", "/uploads/p.jpg", 0, None);
      var q := Photo("q", "h", "q.jpg", "q.jpg", "/uploads/q.jpg", 0, None);
      var s := Store(map["g" := g], map["p" := p, "q" := q], map[]);
      var s1 := UpdatePhotoRoute(s, "p", EmptyPhotoPatch.(id := Some("q"))).store;
      && WellKeyed(s)
      && "p" in DeleteGalleryRoute(s1, "g").store.photos
      && "q" !in DeleteGalleryRoute(s1, "g").store.photos
      && "p" !in DeleteGalleryRouteIntended(s1, "g").store.photos
      && "q" in DeleteGalleryRouteIntended(s1, "g").store.photos
  {
    var g := Gallery("g", "G", "g", None, None, None, 0, None);
    var p := Photo("p", "g", "p.jpg", "p.jpg", "/uploads/p.jpg", 0, None);
    var q := Photo("q", "h", "q.jpg", "q.jpg", "/uploads/q.jpg", 0, None);
    var s := Store(map["g" := g], map["p" := p, "q" := q], map[]);
    var s1 := UpdatePhotoRoute(s, "p", EmptyPhotoPatch.(id := Some("q"))).store;
    assert s1.photos["p"].id == "q" && s1.photos["p"].galleryId == "g";
    assert s1.photos["q"] == q;
    assert "p" in s1.photos && "q" in s1.photos;
    var a := DeleteGalleryRoute(s1, "g").store;
    assert "q" !in a.photos;
    assert "p" in a.photos by {
      assert !(exists j :: j in s1.photos && s1.photos[j].galleryId == "g" && s1.photos[j].id == "p") by {
        forall j | j in s1.photos && s1.photos[j].galleryId == "g" ensures s1.photos[j].id != "p" {
          assert j == "p" || j == "q";
        }
      }
    }
  }

  /**
   * PUT /api/galleries/:id/hero-image: copies the photo's `url` into the
   * gallery's `heroImage`. 404 when the photo is missing (or no `photoId` was
   * sent) and 404 when the gallery is missing; the store is then unchanged.
   * Nothing checks that the photo belongs to that gallery.
   */
  function SetHeroImageRoute(s: Store, galleryId: Id, photoId: Option<Id>): (r: Reply<Gallery>)
    ensures r.status == OK || r.status == NotFound
    ensures r.status == NotFound <==>
      photoId.None? || photoId.value !in s.photos || galleryId !in s.galleries
    ensures r.status == NotFound ==> r.store == s && r.body.None?
    ensures r.status == OK ==>
      && r.body == Some(s.galleries[galleryId].(heroImage := Some(s.photos[photoId.value].url)))
      && r.store.galleries.Keys == s.galleries.Keys
      && r.store.galleries[galleryId] == r.body.value
      && (forall k :: k in s.galleries && k != galleryId ==> r.store.galleries[k] == s.galleries[k])
      && r.store.photos == s.photos && r.store.settings == s.settings
  {
    var photo := if photoId.Some? then GetPhoto(s, photoId.value) else None;
    if photo.None? then Reply(NotFound, s, None)
    else
      var patch := EmptyGalleryPatch.(heroImage := Some(Some(photo.value.url)));
      var (s', g) := UpdateGallery(s, galleryId, patch);
      if g.None? then Reply(NotFound, s', None) else Reply(OK, s', g)
  }

  /** A photo of one gallery can become the hero image of another. */
  lemma HeroImageFromOtherGallery(s: Store, galleryId: Id, photoId: Id)
    requires galleryId in s.galleries && photoId in s.photos
    requires s.photos[photoId].galleryId != galleryId
    ensures var r := SetHeroImageRoute(s, galleryId, Some(photoId));
      r.status == OK && r.store.galleries[galleryId].heroImage == Some(s.photos[photoId].url)
  {
  }

  // ------------------------------------------------------------------- photos

  /** GET /api/galleries/:galleryId/photos: always 200 with that gallery's photos, sorted. */
  method ListPhotosRoute(s: Store, galleryId: Id) returns (r: Reply<seq<Photo>>)
    ensures r.status == OK && r.store == s && r.body.Some?
    ensures forall ph :: ph in r.body.value ==> ph in s.photos.Values && ph.galleryId == galleryId
    ensures forall k :: k in s.photos && s.photos[k].galleryId == galleryId ==> s.photos[k] in r.body.value
    ensures |r.body.value| == |set k | k in s.photos && s.photos[k].galleryId == galleryId|
    ensures forall ph :: multiset(r.body.value)[ph] == (if ph.galleryId == galleryId then |KeysHolding(s.photos, ph)| else 0)
    ensures SortedBy(r.body.value, (ph: Photo) => ph.order)
  {
    var list, ks := GetPhotosByGallery(s, galleryId);
    forall k | k in s.photos && s.photos[k].galleryId == galleryId ensures s.photos[k] in list {
      var i :| 0 <= i < |ks| && ks[i] == k;
      assert list[i] == s.photos[k];
    }
    DistinctSetSize(ks);
    assert (set k | k in ks) == set k | k in s.photos && s.photos[k].galleryId == galleryId;
    forall ph ensures multiset(list)[ph] == (if ph.galleryId == galleryId then |KeysHolding(s.photos, ph)| else 0) {
      PhotoCounts(s, galleryId, ks, list, ph);
    }
    r := Reply(OK, s, Some(list));
  }

  /** A gallery's listing holds each of its photos once per key that holds it. */
  lemma PhotoCounts(s: Store, galleryId: Id, ks: seq<Id>, list: seq<Photo>, ph: Photo)
    requires Distinct(ks)
    requires forall k :: k in ks ==> k in s.photos && s.photos[k].galleryId == galleryId
    requires forall k :: k in s.photos && s.photos[k].galleryId == galleryId ==> k in ks
    requires |list| == |ks|
    requires forall i :: 0 <= i < |list| ==> list[i] == s.photos[ks[i]]
    ensures multiset(list)[ph] == if ph.galleryId == galleryId then |KeysHolding(s.photos, ph)| else 0
  {
    var mine := map k | k in s.photos && s.photos[k].galleryId == galleryId :: s.photos[k];
    ValueCounts(ks, list, mine, ph);
    if ph.galleryId == galleryId {
      assert KeysHolding(mine, ph) == KeysHolding(s.photos, ph);
    } else {
      assert KeysHolding(mine, ph) == {};
    }
  }

  /**
   * A file part of a multipart upload as the upload layer hands it over:
   * `filename` is the name it was stored under on disk (generated from the
   * clock and a random number, so a parameter here).
   */
  datatype IncomingFile = IncomingFile(originalName: string, mimetype: string, size: nat, filename: string)

  /** The per-file size limit: 50 MiB. */
  const MaxFileSize: nat := 50 * 1024 * 1024

  /** The upload file filter: only the four image MIME types get through. */
  function FileFilter(f: IncomingFile): (r: bool)
    ensures r <==> (f.mimetype == "image/jpeg" || f.mimetype == "image/png" ||
                    f.mimetype == "image/gif" || f.mimetype == "image/webp")
  {
    var allowedTypes := ["image/jpeg", "image/png", "image/gif", "image/webp"];
    f.mimetype in allowedTypes
  }

  /** The files the filter lets through, in upload order; rejected files are skipped silently. */
  function Accepted(files: seq<IncomingFile>): (r: seq<IncomingFile>)
    ensures forall f :: f in r ==> f in files && FileFilter(f)
    ensures forall f :: f in files && FileFilter(f) ==> f in r
    ensures |r| <= |files|
  {
    if files == [] then []
    else if FileFilter(files[0]) then [files[0]] + Accepted(files[1..])
    else Accepted(files[1..])
  }

  /** Each accepted file occurs as often as it was uploaded; rejected files not at all. */
  lemma {:induction false} AcceptedCounts(files: seq<IncomingFile>)
    ensures forall f :: multiset(Accepted(files))[f] == if FileFilter(f) then multiset(files)[f] else 0
  {
    if files != [] {
      assert files == [files[0]] + files[1..];
      AcceptedCounts(files[1..]);
    }
  }

  /**
   * Filtering commutes with concatenation, so the accepted files keep the
   * relative order in which they were uploaded.
   */
  lemma {:induction false} AcceptedAppend(a: seq<IncomingFile>, b: seq<IncomingFile>)
    ensures Accepted(a + b) == Accepted(a) + Accepted(b)
  {
    if a != [] {
      var ab := a + b;
      assert ab[0] == a[0] && ab[1..] == a[1..] + b;
      AcceptedAppend(a[1..], b);
      if FileFilter(a[0]) {
        assert Accepted(ab) == [a[0]] + Accepted(a[1..] + b);
        assert Accepted(a) == [a[0]] + Accepted(a[1..]);
      } else {
        assert Accepted(ab) == Accepted(a[1..] + b);
        assert Accepted(a) == Accepted(a[1..]);
      }
    } else {
      assert a + b == b;
    }
  }

  /**
   * The upload layer fails the request when a file exceeds the size limit.
   * The filter runs first, so only a file it accepts can trip the limit.
   */
  predicate TooLarge(files: seq<IncomingFile>): (r: bool)
    ensures r <==> exists i :: 0 <= i < |files| && FileFilter(files[i]) && files[i].size > MaxFileSize
  {
    exists f :: f in Accepted(files) && f.size > MaxFileSize
  }

  /** The insert shape the handler builds for one stored file; `clock` is its `Date.now()`. */
  function PhotoData(galleryId: Id, f: IncomingFile, clock: Timestamp): (r: InsertPhoto)
    ensures r.galleryId == galleryId && r.filename == f.filename
    ensures r.originalName == f.originalName
    ensures r.url == "/uploads/" + f.filename
    ensures r.order == Some(clock)
  {
    InsertPhoto(galleryId, f.filename, f.originalName, "/uploads/" + f.filename, Some(clock))
  }

  /** The handler's loop: one `createPhoto` per file, in order. */
  function CreatePhotos(s: Store, galleryId: Id, files: seq<IncomingFile>, ids: seq<Id>, clock: seq<Timestamp>): (r: (Store, seq<Photo>))
    requires |ids| == |files| == |clock|
    requires Distinct(ids)
    requires forall k :: k in ids ==> k !in s.photos
    ensures r.0 == s.(photos := r.0.photos)
    ensures |r.1| == |files|
    ensures forall i :: 0 <= i < |files| ==>
      r.1[i] == NewPhoto(PhotoData(galleryId, files[i], clock[i]), ids[i], clock[i])
    decreases |files|
  {
    if files == [] then (s, [])
    else
      var ph := NewPhoto(PhotoData(galleryId, files[0], clock[0]), ids[0], clock[0]);
      var s1 := s.(photos := s.photos[ids[0] := ph]);
      assert s1 == CreatePhoto(s, PhotoData(galleryId, files[0], clock[0]), ids[0], clock[0]).0;
      assert forall k :: k in ids[1..] ==> k !in s1.photos by {
        forall k | k in ids[1..] ensures k !in s1.photos {
          assert k != ids[0];
        }
      }
      var (s2, rest) := CreatePhotos(s1, galleryId, files[1..], ids[1..], clock[1..]);
      (s2, [ph] + rest)
  }

  /** The photo loop keeps every existing photo and adds only ids of `ids`. */
  lemma {:induction false} CreatePhotosKeeps(s: Store, galleryId: Id, files: seq<IncomingFile>, ids: seq<Id>, clock: seq<Timestamp>)
    requires |ids| == |files| == |clock|
    requires Distinct(ids)
    requires forall k :: k in ids ==> k !in s.photos
    ensures var r := CreatePhotos(s, galleryId, files, ids, clock);
      && (forall k :: k in s.photos ==> k in r.0.photos && r.0.photos[k] == s.photos[k])
      && (forall k :: k in r.0.photos ==> k in s.photos || k in ids)
    decreases |files|
  {
    if files != [] {
      var ph := NewPhoto(PhotoData(galleryId, files[0], clock[0]), ids[0], clock[0]);
      var s1 := s.(photos := s.photos[ids[0] := ph]);
      assert forall k :: k in ids[1..] ==> k !in s1.photos by {
        forall k | k in ids[1..] ensures k !in s1.photos {
          assert k != ids[0];
        }
      }
      CreatePhotosKeeps(s1, galleryId, files[1..], ids[1..], clock[1..]);
      var r := CreatePhotos(s1, galleryId, files[1..], ids[1..], clock[1..]);
      forall k | k in r.0.photos ensures k in s.photos || k in ids {
        if k in ids[1..] {
          assert k in ids;
        }
      }
    }
  }

  /** The photo loop stores each new photo under its fresh id. */
  lemma {:induction false} CreatePhotosAdds(s: Store, galleryId: Id, files: seq<IncomingFile>, ids: seq<Id>, clock: seq<Timestamp>)
    requires |ids| == |files| == |clock|
    requires Distinct(ids)
    requires forall k :: k in ids ==> k !in s.photos
    ensures var r := CreatePhotos(s, galleryId, files, ids, clock);
      forall i :: 0 <= i < |ids| ==> ids[i] in r.0.photos && r.0.photos[ids[i]] == r.1[i]
    decreases |files|
  {
    if files != [] {
      var ph := NewPhoto(PhotoData(galleryId, files[0], clock[0]), ids[0], clock[0]);
      var s1 := s.(photos := s.photos[ids[0] := ph]);
      assert forall k :: k in ids[1..] ==> k !in s1.photos by {
        forall k | k in ids[1..] ensures k !in s1.photos {
          assert k != ids[0];
        }
      }
      CreatePhotosAdds(s1, galleryId, files[1..], ids[1..], clock[1..]);
      CreatePhotosKeeps(s1, galleryId, files[1..], ids[1..], clock[1..]);
      var r := CreatePhotos(s1, galleryId, files[1..], ids[1..], clock[1..]);
      assert CreatePhotos(s, galleryId, files, ids, clock) == (r.0, [ph] + r.1);
      forall i | 0 <= i < |ids| ensures ids[i] in r.0.photos && r.0.photos[ids[i]] == ([ph] + r.1)[i] {
        if i > 0 {
          assert ids[i] == ids[1..][i-1];
        }
      }
    }
  }

  /**
   * POST /api/galleries/:galleryId/photos. `files` is what the upload layer
   * put in `req.files` (`None` when the request was not multipart); `ids` and
   * `clock` are the fresh ids and clock readings for the accepted files.
   * 400 when there is no file list or an accepted file is too large;
   * otherwise 201 and one photo per accepted file. The gallery is not looked up.
   */
  function UploadPhotosRoute(s: Store, galleryId: Id, files: Option<seq<IncomingFile>>,
                             ids: seq<Id>, clock: seq<Timestamp>): (r: Reply<seq<Photo>>)
    requires files.Some? ==> |ids| == |Accepted(files.value)| == |clock|
    requires Distinct(ids)
    requires forall k :: k in ids ==> k !in s.photos
    ensures r.status == BadRequest || r.status == Created
    ensures r.status == BadRequest <==> files.None? || TooLarge(files.value)
    ensures r.status == BadRequest ==> r.store == s && r.body.None?
    ensures r.status == Created ==>
      var acc := Accepted(files.value);
      && r.body.Some? && |r.body.value| == |acc|
      && (forall i :: 0 <= i < |acc| ==>
            && r.body.value[i].id == ids[i]
            && r.body.value[i].galleryId == galleryId
            && r.body.value[i].filename == acc[i].filename
            && r.body.value[i].originalName == acc[i].originalName
            && r.body.value[i].url == "/uploads/" + acc[i].filename
            && r.body.value[i].order == clock[i]
            && ids[i] in r.store.photos && r.store.photos[ids[i]] == r.body.value[i])
      && (forall k :: k in s.photos ==> k in r.store.photos && r.store.photos[k] == s.photos[k])
      && (forall k :: k in r.store.photos ==> k in s.photos || k in ids)
      && r.store.galleries == s.galleries && r.store.settings == s.settings
  {
    if files.None? || TooLarge(files.value) then Reply(BadRequest, s, None)
    else
      var acc := Accepted(files.value);
      CreatePhotosKeeps(s, galleryId, acc, ids, clock);
      CreatePhotosAdds(s, galleryId, acc, ids, clock);
      var (s', photos) := CreatePhotos(s, galleryId, acc, ids, clock);
      Reply(Created, s', Some(photos))
  }

  /** Uploading into a gallery id that does not exist still creates the photo. */
  lemma UploadIntoMissingGallery(s: Store, galleryId: Id, f: IncomingFile, id: Id, clock: Timestamp)
    requires galleryId !in s.galleries && id !in s.photos
    requires FileFilter(f) && f.size <= MaxFileSize
    ensures var r := UploadPhotosRoute(s, galleryId, Some([f]), [id], [clock]);
      && r.status == Created
      && id in r.store.photos && r.store.photos[id].galleryId == galleryId
      && galleryId !in r.store.galleries
  {
    assert Accepted([f]) == [f];
    assert !TooLarge([f]);
  }

  /** A plain-text file is filtered out: no photo record is created for it. */
  lemma PlainTextCreatesNoPhoto(s: Store, galleryId: Id, f: IncomingFile)
    requires f.mimetype == "text/plain"
    ensures var r := UploadPhotosRoute(s, galleryId, Some([f]), [], []);
      r.status == Created && r.body == Some([]) && r.store.photos == s.photos
  {
    assert Accepted([f]) == [];
    assert !TooLarge([f]);
  }

  /** PUT /api/photos/:id: 404 and no change when absent, else 200 with the merged record. */
  function UpdatePhotoRoute(s: Store, id: Id, p: PhotoPatch): (r: Reply<Photo>)
    ensures r.status == NotFound <==> id !in s.photos
    ensures r.status == OK || r.status == NotFound
    ensures r.status == NotFound ==> r.store == s && r.body.None?
    ensures r.status == OK ==>
      && r.body == Some(MergePhoto(s.photos[id], p))
      && r.store.photos.Keys == s.photos.Keys
      && r.store.photos[id] == r.body.value
      && (forall k :: k in s.photos && k != id ==> r.store.photos[k] == s.photos[k])
      && r.store.galleries == s.galleries && r.store.settings == s.settings
  {
    var (s', ph) := UpdatePhoto(s, id, p);
    if ph.None? then Reply(NotFound, s', None) else Reply(OK, s', ph)
  }

  /**
   * DELETE /api/photos/:id: 404 and no change when absent; otherwise the
   * record goes and the answer is 200 whether or not removing the file
   * (`unlinked`) succeeded.
   */
  function DeletePhotoRoute(s: Store, id: Id, unlinked: bool): (r: Answer)
    ensures r.status == NotFound <==> id !in s.photos
    ensures r.status == OK || r.status == NotFound
    ensures r.status == NotFound ==> r.store == s
    ensures r.status == OK ==>
      && r.store.photos.Keys == s.photos.Keys - {id}
      && |r.store.photos| == |s.photos| - 1
      && (forall k :: k in r.store.photos ==> r.store.photos[k] == s.photos[k])
      && r.store.galleries == s.galleries && r.store.settings == s.settings
  {
    match GetPhoto(s, id)
    case None => Answer(NotFound, s)
    case Some(photo) =>
      var (s', _) := DeletePhoto(s, id);
      Answer(OK, s')
  }

  /** Whether the file could be removed never changes the reply. */
  lemma DeletePhotoIgnoresUnlink(s: Store, id: Id)
    ensures DeletePhotoRoute(s, id, true) == DeletePhotoRoute(s, id, false)
  {
  }

  /** PUT /api/photos/:id/order: 404 and no change when absent, else 200 and only that order changes. */
  function SetPhotoOrderRoute(s: Store, id: Id, order: int): (r: Answer)
    ensures r.status == NotFound <==> id !in s.photos
    ensures r.status == OK || r.status == NotFound
    ensures r.status == NotFound ==> r.store == s
    ensures r.status == OK ==>
      && r.store.photos.Keys == s.photos.Keys
      && r.store.photos[id] == s.photos[id].(order := order)
      && (forall k :: k in s.photos && k != id ==> r.store.photos[k] == s.photos[k])
      && r.store.galleries == s.galleries && r.store.settings == s.settings
  {
    var (s', found) := UpdatePhotoOrder(s, id, order);
    if found then Answer(OK, s') else Answer(NotFound, s')
  }

  // -------------------------------------------------------------------- admin

  /** The setting key under which the admin password is kept. */
  const PasswordKey := "password"

  /**
   * POST /api/admin/login: 200 exactly when a password setting exists and the
   * submitted password equals it (plain string equality); 401 otherwise. The
   * store is never modified.
   */
  function LoginRoute(s: Store, password: Option<string>): (r: Answer)
    ensures r.store == s
    ensures r.status == OK || r.status == Unauthorized
    ensures r.status == OK <==>
      PasswordKey in s.settings && password == Some(s.settings[PasswordKey].value)
  {
    var stored := GetAdminSetting(s, PasswordKey);
    if stored.None? || password.None? || password.value != stored.value.value then
      Answer(Unauthorized, s)
    else
      Answer(OK, s)
  }

  /** The minimum length of a new password. */
  const MinPasswordLength := 6

  /**
   * POST /api/admin/change-password: 400 and no change when `newPassword` is
   * missing, empty or shorter than 6 characters; otherwise the password
   * setting is upserted with it and the answer is 200.
   */
  function ChangePasswordRoute(s: Store, newPassword: Option<string>, freshId: Id, now: Timestamp): (r: Answer)
    ensures r.status == OK || r.status == BadRequest
    ensures r.status == BadRequest <==> newPassword.None? || |newPassword.value| < MinPasswordLength
    ensures r.status == BadRequest ==> r.store == s
    ensures r.status == OK ==>
      && PasswordKey in r.store.settings
      && r.store.settings[PasswordKey].value == newPassword.value
      && r.store.settings.Keys == s.settings.Keys + {PasswordKey}
      && (forall k :: k in s.settings && k != PasswordKey ==> r.store.settings[k] == s.settings[k])
      && r.store.galleries == s.galleries && r.store.photos == s.photos
  {
    if newPassword.None? || newPassword.value == "" || |newPassword.value| < MinPasswordLength then
      Answer(BadRequest, s)
    else
      var (s', _) := SetAdminSetting(s, InsertAdminSetting(PasswordKey, newPassword.value), freshId, now);
      Answer(OK, s')
  }

  /** After a successful change, the new password logs in and any other one is refused. */
  lemma ChangePasswordThenLogin(s: Store, p: string, q: string, freshId: Id, now: Timestamp)
    requires |p| >= MinPasswordLength
    ensures var s' := ChangePasswordRoute(s, Some(p), freshId, now).store;
      && LoginRoute(s', Some(p)).status == OK
      && (q != p ==> LoginRoute(s', Some(q)).status == Unauthorized)
  {
  }

  /** A freshly started store accepts the default password and nothing else. */
  lemma SeedLogin(passwordId: Id, passwordTime: Timestamp, ids: seq<Id>, times: seq<Timestamp>, q: string)
    requires |ids| == |times| == |DefaultGalleries| && Distinct(ids)
    ensures LoginRoute(Seed(passwordId, passwordTime, ids, times), Some(DefaultPassword)).status == OK
    ensures q != DefaultPassword ==> LoginRoute(Seed(passwordId, passwordTime, ids, times), Some(q)).status == Unauthorized
  {
  }
}

=== FILE: schema.dfy ===
/**
 * Entity shapes of the portfolio site: galleries, photos and admin settings,
 * together with the insert shapes (what a caller supplies) and the partial
 * shapes used by the shallow-merge updates.
 *
 * A column declared without `notNull` is nullable; it is an `Option` here.
 * In a partial update a nullable field becomes `Option<Option<_>>`: the
 * outer `None` means "property not supplied", `Some(None)` means "set to null".
 */
module Schema {
  import opened Optional

  type Id = string
  /** Milliseconds since the epoch, as produced by `Date.now()` / `new Date()`. */
  type Timestamp = int

  /**
   * A gallery record. The table column is `coverImage`; the server writes and
   * the home page reads a separate `heroImage` property, which the in-memory
   * store carries alongside the declared columns.
   */
  datatype Gallery = Gallery(
    id: Id,
    name: string,
    slug: string,
    description: Option<string>,
    coverImage: Option<string>,
    heroImage: Option<string>,
    order: int,
    createdAt: Option<Timestamp>)

  datatype Photo = Photo(
    id: Id,
    galleryId: Id,
    filename: string,
    originalName: string,
    url: string,
    order: int,
    createdAt: Option<Timestamp>)

  datatype AdminSetting = AdminSetting(
    id: Id,
    key: string,
    value: string,
    updatedAt: Option<Timestamp>)

  /** Insert shape of a gallery: the table minus `id` and `createdAt`. */
  datatype InsertGallery = InsertGallery(
    name: string,
    slug: string,
    description: Option<string>,
    coverImage: Option<string>,
    order: Option<int>)

  /** Insert shape of a photo: the table minus `id` and `createdAt`. */
  datatype InsertPhoto = InsertPhoto(
    galleryId: Id,
    filename: string,
    originalName: string,
    url: string,
    order: Option<int>)

  /** Insert shape of an admin setting: the table minus `id` and `updatedAt`. */
  datatype InsertAdminSetting = InsertAdminSetting(key: string, value: string)

  /** `Partial<Gallery>`: every property, the record's own `id` included, may be supplied. */
  datatype GalleryPatch = GalleryPatch(
    id: Option<Id>,
    name: Option<string>,
    slug: Option<string>,
    description: Option<Option<string>>,
    coverImage: Option<Option<string>>,
    heroImage: Option<Option<string>>,
    order: Option<int>,
    createdAt: Option<Option<Timestamp>>)

  /** `Partial<Photo>`. */
  datatype PhotoPatch = PhotoPatch(
    id: Option<Id>,
    galleryId: Option<Id>,
    filename: Option<string>,
    originalName: Option<string>,
    url: Option<string>,
    order: Option<int>,
    createdAt: Option<Option<Timestamp>>)

  const EmptyGalleryPatch := GalleryPatch(None, None, None, None, None, None, None, None)
  const EmptyPhotoPatch := PhotoPatch(None, None, None, None, None, None, None)

  /**
   * A gallery request body as it arrives, before validation: the required
   * columns may be missing. Properties outside the insert shape are dropped
   * by the validator and are not represented.
   */
  datatype GalleryBody = GalleryBody(
    name: Option<string>,
    slug: Option<string>,
    description: Option<string>,
    coverImage: Option<string>,
    order: Option<int>)

  /**
   * Validation of a gallery body against the insert schema: `name` and `slug`
   * are required (non-null columns without a default); `description`,
   * `coverImage` and `order` are optional. Type errors are not represented.
   */
  function ParseInsertGallery(b: GalleryBody): (r: Option<InsertGallery>)
    ensures r.Some? <==> b.name.Some? && b.slug.Some?
    ensures r.Some? ==>
      && r.value.name == b.name.value
      && r.value.slug == b.slug.value
      && r.value.description == b.description
      && r.value.coverImage == b.coverImage
      && r.value.order == b.order
  {
    match (b.name, b.slug)
    case (Some(name), Some(slug)) =>
      Some(InsertGallery(name, slug, b.description, b.coverImage, b.order))
    case _ => None
  }

  /** Shallow merge `{...g, ...p}`: supplied properties win, the rest are kept. */
  function MergeGallery(g: Gallery, p: GalleryPatch): (r: Gallery)
    ensures r.id == p.id.GetOr(g.id)
    ensures r.name == p.name.GetOr(g.name)
    ensures r.slug == p.slug.GetOr(g.slug)
    ensures r.description == p.description.GetOr(g.description)
    ensures r.coverImage == p.coverImage.GetOr(g.coverImage)
    ensures r.heroImage == p.heroImage.GetOr(g.heroImage)
    ensures r.order == p.order.GetOr(g.order)
    ensures r.createdAt == p.createdAt.GetOr(g.createdAt)
  {
    Gallery(
      if p.id.Some? then p.id.value else g.id,
      if p.name.Some? then p.name.value else g.name,
      if p.slug.Some? then p.slug.value else g.slug,
      if p.description.Some? then p.description.value else g.description,
      if p.coverImage.Some? then p.coverImage.value else g.coverImage,
      if p.heroImage.Some? then p.heroImage.value else g.heroImage,
      if p.order.Some? then p.order.value else g.order,
      if p.createdAt.Some? then p.createdAt.value else g.createdAt)
  }

  /** Shallow merge `{...ph, ...p}` of a photo. */
  function MergePhoto(ph: Photo, p: PhotoPatch): (r: Photo)
    ensures r.id == p.id.GetOr(ph.id)
    ensures r.galleryId == p.galleryId.GetOr(ph.galleryId)
    ensures r.filename == p.filename.GetOr(ph.filename)
    ensures r.originalName == p.originalName.GetOr(ph.originalName)
    ensures r.url == p.url.GetOr(ph.url)
    ensures r.order == p.order.GetOr(ph.order)
    ensures r.createdAt == p.createdAt.GetOr(ph.createdAt)
  {
    Photo(
      if p.id.Some? then p.id.value else ph.id,
      if p.galleryId.Some? then p.galleryId.value else ph.galleryId,
      if p.filename.Some? then p.filename.value else ph.filename,
      if p.originalName.Some? then p.originalName.value else ph.originalName,
      if p.url.Some? then p.url.value else ph.url,
      if p.order.Some? then p.order.value else ph.order,
      if p.createdAt.Some? then p.createdAt.value else ph.createdAt)
  }

  /** An empty patch changes nothing. */
  lemma MergeEmptyIsIdentity(g: Gallery, ph: Photo)
    ensures MergeGallery(g, EmptyGalleryPatch) == g
    ensures MergePhoto(ph, EmptyPhotoPatch) == ph
  {
  }

  /** Applying the same patch twice is the same as applying it once. */
  lemma MergeIdempotent(g: Gallery, p: GalleryPatch, ph: Photo, q: PhotoPatch)
    ensures MergeGallery(MergeGallery(g, p), p) == MergeGallery(g, p)
    ensures MergePhoto(MergePhoto(ph, q), q) == MergePhoto(ph, q)
  {
  }
}

=== FILE: slug.dfy ===
/**
 * Slug derivation for a new gallery:
 * `name.toLowerCase().replace(/\s+/g, '-').replace(/[^a-z0-9-]/g, '')`.
 * Lower-casing is modelled for ASCII letters only; `\s` is modelled as the
 * fixed set of code points the JavaScript standard assigns to it.
 */
module Slug {

  /** JavaScript's `\s` (white space and line terminators); `String.prototype.trim` strips the same set. */
  predicate IsSpace(c: char) {
    var n := c as int;
    || (0x09 <= n <= 0x0D) || n == 0x20 || n == 0xA0 || n == 0x1680
    || (0x2000 <= n <= 0x200A) || n == 0x2028 || n == 0x2029 || n == 0x202F
    || n == 0x205F || n == 0x3000 || n == 0xFEFF
  }

  /** The characters a slug may keep: `[a-z0-9-]`. */
  predicate IsSlugChar(c: char) {
    ('a' <= c <= 'z') || ('0' <= c <= '9') || c == '-'
  }

  predicate IsUpper(c: char) {
    'A' <= c <= 'Z'
  }

  /** ASCII lower-casing of one character. */
  function LowerChar(c: char): (r: char)
    ensures IsUpper(c) ==> 'a' <= r <= 'z' && r as int - c as int == 32
    ensures !IsUpper(c) ==> r == c
  {
    if IsUpper(c) then (c as int + 32) as char else c
  }

  /** `toLowerCase`, ASCII letters only: same length, no upper-case letter left. */
  function ToLower(s: string): (r: string)
    ensures |r| == |s|
    ensures forall i :: 0 <= i < |s| ==> r[i] == LowerChar(s[i])
    ensures forall i :: 0 <= i < |r| ==> !IsUpper(r[i])
  {
    seq(|s|, i requires 0 <= i < |s| => LowerChar(s[i]))
  }

  /** The input with its leading whitespace run removed. */
  function DropSpaces(s: string): (r: string)
    ensures |r| <= |s|
    ensures r == [] || !IsSpace(r[0])
  {
    if s != [] && IsSpace(s[0]) then DropSpaces(s[1..]) else s
  }

  /** `replace(/\s+/g, '-')`: each maximal whitespace run becomes one hyphen. */
  function CollapseSpaces(s: string): (r: string)
    ensures |r| <= |s|
    ensures forall i :: 0 <= i < |r| ==> !IsSpace(r[i])
    decreases |s|
  {
    if s == [] then []
    else if IsSpace(s[0]) then ['-'] + CollapseSpaces(DropSpaces(s[1..]))
    else [s[0]] + CollapseSpaces(s[1..])
  }

  /** `replace(/[^a-z0-9-]/g, '')`: drops every character outside `[a-z0-9-]`. */
  function StripInvalid(s: string): (r: string)
    ensures |r| <= |s|
    ensures forall i :: 0 <= i < |r| ==> IsSlugChar(r[i])
    ensures forall c :: IsSlugChar(c) ==> Count(c, r) == Count(c, s)
  {
    if s == [] then []
    else if IsSlugChar(s[0]) then [s[0]] + StripInvalid(s[1..])
    else StripInvalid(s[1..])
  }

  /**
   * Removal commutes with concatenation, so the kept characters stay in
   * their original order.
   */
  lemma {:induction false} StripInvalidAppend(a: string, b: string)
    ensures StripInvalid(a + b) == StripInvalid(a) + StripInvalid(b)
  {
    if a != [] {
      assert (a + b)[1..] == a[1..] + b;
      StripInvalidAppend(a[1..], b);
    } else {
      assert a + b == b;
    }
  }

  /** The slug derived from a gallery name. */
  function Slugify(name: string): (r: string)
    ensures |r| <= |name|
    ensures forall i :: 0 <= i < |r| ==> IsSlugChar(r[i]) && !IsSpace(r[i])
  {
    StripInvalid(CollapseSpaces(ToLower(name)))
  }

  // ------------------------------------------------------- reference notions

  /** Occurrences of `c` in `s`. */
  function Count(c: char, s: string): nat {
    if s == [] then 0 else (if s[0] == c then 1 else 0) + Count(c, s[1..])
  }

  /**
   * The number of maximal whitespace runs in `s`, counted as the positions
   * where a whitespace character follows a non-whitespace one (or the start,
   * when `prevSpace` is false).
   */
  function RunsAfter(s: string, prevSpace: bool): nat {
    if s == [] then 0
    else (if IsSpace(s[0]) && !prevSpace then 1 else 0) + RunsAfter(s[1..], IsSpace(s[0]))
  }

  function Runs(s: string): nat {
    RunsAfter(s, false)
  }

  /** `s` without whitespace and without hyphens: the characters a slug transformation must not touch. */
  function Solid(s: string): string {
    if s == [] then []
    else if IsSpace(s[0]) || s[0] == '-' then Solid(s[1..])
    else [s[0]] + Solid(s[1..])
  }

  // ------------------------------------------------------------------ lemmas

  /** Dropping a leading whitespace run removes no hyphen, no solid character and no run after a space. */
  lemma {:induction false} DropSpacesKeeps(s: string)
    ensures Count('-', DropSpaces(s)) == Count('-', s)
    ensures Solid(DropSpaces(s)) == Solid(s)
    ensures RunsAfter(DropSpaces(s), true) == RunsAfter(s, true)
  {
    if s != [] && IsSpace(s[0]) {
      DropSpacesKeeps(s[1..]);
    }
  }

  /** Each maximal whitespace run contributes exactly one hyphen. */
  lemma {:induction false} CollapseAddsOneHyphenPerRun(s: string)
    ensures Count('-', CollapseSpaces(s)) == Count('-', s) + Runs(s)
    decreases |s|
  {
    if s != [] {
      if IsSpace(s[0]) {
        var d := DropSpaces(s[1..]);
        CollapseAddsOneHyphenPerRun(d);
        DropSpacesKeeps(s[1..]);
        assert RunsAfter(d, true) == RunsAfter(d, false);
        assert CollapseSpaces(s) == ['-'] + CollapseSpaces(d);
        assert Count('-', CollapseSpaces(s)) == 1 + Count('-', CollapseSpaces(d));
      } else {
        CollapseAddsOneHyphenPerRun(s[1..]);
        assert CollapseSpaces(s) == [s[0]] + CollapseSpaces(s[1..]);
        assert Count('-', CollapseSpaces(s)) == (if s[0] == '-' then 1 else 0) + Count('-', CollapseSpaces(s[1..]));
      }
    }
  }

  /** Collapsing leaves every other character in place and in order. */
  lemma {:induction false} CollapseKeepsSolid(s: string)
    ensures Solid(CollapseSpaces(s)) == Solid(s)
    decreases |s|
  {
    if s != [] {
      if IsSpace(s[0]) {
        var d := DropSpaces(s[1..]);
        CollapseKeepsSolid(d);
        DropSpacesKeeps(s[1..]);
        assert CollapseSpaces(s) == ['-'] + CollapseSpaces(d);
        assert Solid(['-'] + CollapseSpaces(d)) == Solid(CollapseSpaces(d));
      } else {
        CollapseKeepsSolid(s[1..]);
        assert CollapseSpaces(s) == [s[0]] + CollapseSpaces(s[1..]);
        assert ([s[0]] + CollapseSpaces(s[1..]))[1..] == CollapseSpaces(s[1..]);
      }
    }
  }

  /** Collapsing does nothing to a string without whitespace. */
  lemma {:induction false} CollapseNoSpaceIsIdentity(s: string)
    requires forall i :: 0 <= i < |s| ==> !IsSpace(s[i])
    ensures CollapseSpaces(s) == s
  {
    if s != [] {
      CollapseNoSpaceIsIdentity(s[1..]);
    }
  }

  /** Dropping leading whitespace from `w + b` drops it from `w`, and from `b` too when `w` is all whitespace. */
  lemma {:induction false} DropSpacesAppend(w: string, b: string)
    ensures DropSpaces(w + b) == if DropSpaces(w) == [] then DropSpaces(b) else DropSpaces(w) + b
  {
    if w == [] {
      assert w + b == b;
    } else if IsSpace(w[0]) {
      assert (w + b)[1..] == w[1..] + b;
      DropSpacesAppend(w[1..], b);
    }
  }

  /** A string of whitespace only is dropped entirely. */
  lemma {:induction false} DropAllSpaces(w: string)
    requires forall i :: 0 <= i < |w| ==> IsSpace(w[i])
    ensures DropSpaces(w) == []
  {
    if w != [] {
      DropAllSpaces(w[1..]);
    }
  }

  /** A non-empty whitespace run on its own becomes one hyphen. */
  lemma CollapseRun(w: string)
    requires w != []
    requires forall i :: 0 <= i < |w| ==> IsSpace(w[i])
    ensures CollapseSpaces(w) == "-"
  {
    DropAllSpaces(w[1..]);
  }

  /**
   * Collapsing works piecewise wherever the cut does not fall inside a
   * whitespace run: each run's hyphen stays where the run stood.
   */
  lemma {:induction false} CollapseSplit(a: string, b: string)
    requires a == [] || b == [] || !IsSpace(a[|a| - 1]) || !IsSpace(b[0])
    ensures CollapseSpaces(a + b) == CollapseSpaces(a) + CollapseSpaces(b)
    decreases |a|
  {
    if a == [] {
      assert a + b == b;
    } else if !IsSpace(a[0]) {
      assert (a + b)[1..] == a[1..] + b;
      CollapseSplit(a[1..], b);
    } else {
      var d := DropSpaces(a[1..]);
      assert (a + b)[1..] == a[1..] + b;
      DropSpacesAppend(a[1..], b);
      if d == [] {
        SpacesUntilDropped(a);
        CollapseSplitRun(a, b);
      } else {
        DropSpacesIsSuffix(a[1..]);
        assert d[|d| - 1] == a[|a| - 1];
        CollapseSplit(d, b);
      }
    }
  }

  /** A string that dropping leading whitespace empties is whitespace throughout. */
  lemma {:induction false} SpacesUntilDropped(w: string)
    requires DropSpaces(w) == []
    ensures forall i :: 0 <= i < |w| ==> IsSpace(w[i])
  {
    if w != [] {
      SpacesUntilDropped(w[1..]);
      assert forall i :: 1 <= i < |w| ==> w[i] == w[1..][i - 1];
    }
  }

  /** The case of `CollapseSplit` where `a` is one whitespace run. */
  lemma CollapseSplitRun(a: string, b: string)
    requires a != [] && forall i :: 0 <= i < |a| ==> IsSpace(a[i])
    requires b == [] || !IsSpace(b[0])
    ensures CollapseSpaces(a + b) == CollapseSpaces(a) + CollapseSpaces(b)
  {
    CollapseRun(a);
    assert (a + b)[1..] == a[1..] + b;
    DropAllSpaces(a[1..]);
    DropSpacesAppend(a[1..], b);
    assert DropSpaces(b) == b;
  }

  /** Stripping does nothing to a string of slug characters. */
  lemma {:induction false} StripValidIsIdentity(s: string)
    requires forall i :: 0 <= i < |s| ==> IsSlugChar(s[i])
    ensures StripInvalid(s) == s
  {
    if s != [] {
      StripValidIsIdentity(s[1..]);
    }
  }

  /** Deriving a slug from a slug gives it back unchanged. */
  lemma SlugifyIdempotent(name: string)
    ensures Slugify(Slugify(name)) == Slugify(name)
  {
    var s := Slugify(name);
    var lower := ToLower(s);
    assert lower == s;
    CollapseNoSpaceIsIdentity(s);
    StripValidIsIdentity(s);
  }

  /** The slug of "My Gallery" is "my-gallery". */
  lemma SlugifyExample()
    ensures Slugify("My Gallery") == "my-gallery"
  {
    LowerExample();
    CollapseExample();
    StripExample();
  }

  lemma LowerExample()
    ensures ToLower("My Gallery") == "my gallery"
  {
    var lower := ToLower("My Gallery");
    assert |lower| == 10;
    forall i | 0 <= i < 10 ensures lower[i] == "my gallery"[i] {
      assert lower[i] == LowerChar("My Gallery"[i]);
    }
  }

  /** Between two words without whitespace, one whitespace character becomes one hyphen. */
  lemma {:induction false} CollapseBetweenWords(a: string, c: char, b: string)
    requires forall i :: 0 <= i < |a| ==> !IsSpace(a[i])
    requires forall i :: 0 <= i < |b| ==> !IsSpace(b[i])
    requires IsSpace(c)
    ensures CollapseSpaces(a + [c] + b) == a + ['-'] + b
  {
    if a == [] {
      assert a + [c] + b == [c] + b;
      assert (if b == [] then b else b[0..]) == b;
      assert DropSpaces(b) == b;
      CollapseNoSpaceIsIdentity(b);
    } else {
      CollapseBetweenWords(a[1..], c, b);
      assert (a + [c] + b)[1..] == a[1..] + [c] + b;
    }
  }

  lemma CollapseExample()
    ensures CollapseSpaces("my gallery") == "my-gallery"
  {
    var a, b := "my", "gallery";
    assert forall i :: 0 <= i < |b| ==> !IsSpace(b[i]);
    CollapseBetweenWords(a, ' ', b);
    assert a + [' '] + b == "my gallery";
    assert a + ['-'] + b == "my-gallery";
  }

  lemma StripExample()
    ensures StripInvalid("my-gallery") == "my-gallery"
  {
    var slug := "my-gallery";
    forall i | 0 <= i < |slug| ensures IsSlugChar(slug[i]) {
    }
    StripValidIsIdentity(slug);
  }

  /** `trim`: the input without leading and trailing whitespace. */
  function Trim(s: string): (r: string)
    ensures |r| <= |s|
    ensures r == [] <==> forall i :: 0 <= i < |s| ==> IsSpace(s[i])
    ensures r != [] ==> !IsSpace(r[0]) && !IsSpace(r[|r| - 1])
    ensures exists i :: (0 <= i <= |s| - |r| && s[i..][..|r|] == r
                         && (forall k :: 0 <= k < i ==> IsSpace(s[k]))
                         && (forall k :: i + |r| <= k < |s| ==> IsSpace(s[k])))
  {
    DropSpacesIsSuffix(s);
    var d := DropSpaces(s);
    var r := DropTrailingSpaces(d);
    var i := |s| - |d|;
    assert s[i..][..|r|] == r;
    assert forall k :: i + |r| <= k < |s| ==> IsSpace(s[k]) by {
      forall k | i + |r| <= k < |s| ensures IsSpace(s[k]) {
        assert s[k] == d[k - i];
      }
    }
    r
  }

  /** What `DropSpaces` removes is a prefix of whitespace. */
  lemma {:induction false} DropSpacesIsSuffix(s: string)
    ensures var r := DropSpaces(s);
      && r == s[|s| - |r|..]
      && forall i :: 0 <= i < |s| - |r| ==> IsSpace(s[i])
  {
    if s != [] && IsSpace(s[0]) {
      DropSpacesIsSuffix(s[1..]);
    }
  }

  /** The input with its trailing whitespace run removed. */
  function DropTrailingSpaces(s: string): (r: string)
    ensures |r| <= |s|
    ensures r == s[..|r|]
    ensures r == [] || !IsSpace(r[|r| - 1])
    ensures forall i :: |r| <= i < |s| ==> IsSpace(s[i])
  {
    if s != [] && IsSpace(s[|s| - 1]) then DropTrailingSpaces(s[..|s| - 1]) else s
  }
}

=== FILE: storage.dfy ===
/**
 * The in-memory store (`MemStorage`): three maps, galleries and photos keyed
 * by id and admin settings keyed by `key`. Every operation is a pure function
 * from a store to a new store and a result; fresh ids (`randomUUID`) and clock
 * readings (`new Date()`) are parameters. The list operations enumerate a map
 * and are methods.
 */
module Storage {
  import opened Optional
  import opened Schema
  import opened Listing

  datatype Store = Store(
    galleries: map<Id, Gallery>,
    photos: map<Id, Photo>,
    settings: map<string, AdminSetting>)

  const EmptyStore := Store(map[], map[], map[])

  /**
   * Every record's own `id` (and every setting's `key`) equals the map key it
   * is stored under. Creation keeps this; a partial update that supplies a
   * different `id` breaks it.
   */
  ghost predicate WellKeyed(s: Store) {
    && (forall k :: k in s.galleries ==> s.galleries[k].id == k)
    && (forall k :: k in s.photos ==> s.photos[k].id == k)
    && (forall k :: k in s.settings ==> s.settings[k].key == k)
  }

  /** `order || 0`: an absent (or zero) order is stored as 0. */
  function OrderOrZero(order: Option<int>): (r: int)
    ensures r == order.GetOr(0)
  {
    if order.Some? && order.value != 0 then order.value else 0
  }

  // ---------------------------------------------------------------- galleries

  /** `getGallery`: the gallery stored under `id`, if any. */
  function GetGallery(s: Store, id: Id): (r: Option<Gallery>)
    ensures r.Some? <==> id in s.galleries
    ensures r.Some? ==> r.value == s.galleries[id]
  {
    if id in s.galleries then Some(s.galleries[id]) else None
  }

  /** The record `createGallery` builds from an insert shape. */
  function NewGallery(ins: InsertGallery, id: Id, now: Timestamp): (g: Gallery)
    ensures g.id == id && g.name == ins.name && g.slug == ins.slug
    ensures g.description == ins.description && g.coverImage == ins.coverImage
    ensures g.heroImage == None
    ensures g.order == ins.order.GetOr(0)
    ensures g.createdAt == Some(now)
  {
    Gallery(id, ins.name, ins.slug, ins.description, ins.coverImage, None,
            OrderOrZero(ins.order), Some(now))
  }

  /** `createGallery` with the fresh id `id` and creation time `now`. */
  function CreateGallery(s: Store, ins: InsertGallery, id: Id, now: Timestamp): (r: (Store, Gallery))
    requires id !in s.galleries
    ensures r.1 == NewGallery(ins, id, now)
    ensures r.0.galleries.Keys == s.galleries.Keys + {id}
    ensures r.0.galleries[id] == r.1
    ensures forall k :: k in s.galleries ==> r.0.galleries[k] == s.galleries[k]
    ensures r.0.photos == s.photos && r.0.settings == s.settings
    ensures WellKeyed(s) ==> WellKeyed(r.0)
  {
    var g := NewGallery(ins, id, now);
    var gs := s.galleries[id := g];
    assert gs.Keys == s.galleries.Keys + {id};
    assert WellKeyed(s) ==> WellKeyed(s.(galleries := gs)) by {
      if WellKeyed(s) {
        forall k | k in gs ensures gs[k].id == k {
          if k != id { assert gs[k] == s.galleries[k]; }
        }
      }
    }
    (s.(galleries := gs), g)
  }

  /** `updateGallery`: shallow merge under the same key, or nothing when absent. */
  function UpdateGallery(s: Store, id: Id, p: GalleryPatch): (r: (Store, Option<Gallery>))
    ensures id !in s.galleries ==> r.0 == s && r.1 == None
    ensures id in s.galleries ==>
      && r.1 == Some(MergeGallery(s.galleries[id], p))
      && r.0.galleries.Keys == s.galleries.Keys
      && r.0.galleries[id] == r.1.value
    ensures forall k :: k in s.galleries && k != id ==> r.0.galleries[k] == s.galleries[k]
    ensures r.0.photos == s.photos && r.0.settings == s.settings
    ensures WellKeyed(s) && (p.id == None || p.id == Some(id)) ==> WellKeyed(r.0)
  {
    if id !in s.galleries then (s, None)
    else
      var g := MergeGallery(s.galleries[id], p);
      (s.(galleries := s.galleries[id := g]), Some(g))
  }

  /**
   * `deleteGallery` as the code does it: the cascade collects the photos whose
   * `galleryId` matches and deletes each by its record's `id` property rather
   * than by the key it is stored under.
   */
  function DeleteGalleryAsWritten(s: Store, id: Id): (r: (Store, bool))
    ensures r.1 <==> id in s.galleries
    ensures r.0.galleries.Keys == s.galleries.Keys - {id}
    ensures forall k :: k in r.0.galleries ==> r.0.galleries[k] == s.galleries[k]
    ensures forall k :: k in r.0.photos ==> k in s.photos && r.0.photos[k] == s.photos[k]
    ensures forall k :: k in s.photos ==>
      (k in r.0.photos <==> !(exists j :: j in s.photos && s.photos[j].galleryId == id && s.photos[j].id == k))
    ensures r.0.settings == s.settings
  {
    var doomed := set k | k in s.photos && s.photos[k].galleryId == id :: s.photos[k].id;
    (Store(s.galleries - {id}, s.photos - doomed, s.settings), id in s.galleries)
  }

  /**
   * `deleteGallery` with the cascade the schema declares: every photo whose
   * `galleryId` is `id` goes, by key, whether or not the gallery exists.
   */
  function DeleteGallery(s: Store, id: Id): (r: (Store, bool))
    ensures r.1 <==> id in s.galleries
    ensures r.0.galleries.Keys == s.galleries.Keys - {id}
    ensures forall k :: k in r.0.galleries ==> r.0.galleries[k] == s.galleries[k]
    ensures forall k :: k in r.0.photos ==> r.0.photos[k].galleryId != id
    ensures forall k :: k in r.0.photos ==> k in s.photos && r.0.photos[k] == s.photos[k]
    ensures forall k :: k in s.photos && s.photos[k].galleryId != id ==> k in r.0.photos
    ensures r.0.settings == s.settings
    ensures WellKeyed(s) ==> WellKeyed(r.0)
  {
    var kept := map k | k in s.photos && s.photos[k].galleryId != id :: s.photos[k];
    (Store(s.galleries - {id}, kept, s.settings), id in s.galleries)
  }

  /** On a well-keyed store the code's cascade and the intended one agree. */
  lemma DeleteGalleryAgreesWhenWellKeyed(s: Store, id: Id)
    requires WellKeyed(s)
    ensures DeleteGalleryAsWritten(s, id) == DeleteGallery(s, id)
  {
    var doomed := set k | k in s.photos && s.photos[k].galleryId == id :: s.photos[k].id;
    assert doomed == set k | k in s.photos && s.photos[k].galleryId == id;
    var a := s.photos - doomed;
    var b := map k | k in s.photos && s.photos[k].galleryId != id :: s.photos[k];
    assert a.Keys == b.Keys;
    assert forall k :: k in a ==> a[k] == b[k];
    assert a == b;
  }

  /**
   * The code's cascade after a photo's `id` property was rewritten: deleting
   * gallery "g" leaves its photo stored under "p" behind (its `id` now reads
   * "q") and instead removes the photo stored under "q", which belongs to "h".
   */
  lemma CascadeMissesRekeyedPhoto()
    ensures var g := Gallery("g", "G", "g", None, None, None, 0, None);
      var h := Gallery("h", "H", "h", None, None, None, 0, None);
      var p := Photo("q", "g", "p.jpg", "p.jpg", "/uploads/p.jpg", 0, None);
      var q := Photo("q", "h", "q.jpg", "q.jpg", "/uploads/q.jpg", 0, None);
      var s := Store(map["g" := g, "h" := h], map["p" := p, "q" := q], map[]);
      var after := DeleteGalleryAsWritten(s, "g").0;
      && "p" in after.photos && after.photos["p"].galleryId == "g"
      && "q" !in after.photos
      && DeleteGallery(s, "g").0.photos == map["q" := q]
  {
    var g := Gallery("g", "G", "g", None, None, None, 0, None);
    var h := Gallery("h", "H", "h", None, None, None, 0, None);
    var p := Photo("q", "g", "p.jpg", "p.jpg", "/uploads/p.jpg", 0, None);
    var q := Photo("q", "h", "q.jpg", "q.jpg", "/uploads/q.jpg", 0, None);
    var s := Store(map["g" := g, "h" := h], map["p" := p, "q" := q], map[]);
    var doomed := set k | k in s.photos && s.photos[k].galleryId == "g" :: s.photos[k].id;
    assert s.photos["p"].galleryId == "g";
    assert doomed == {"q"};
    var kept := map k | k in s.photos && s.photos[k].galleryId != "g" :: s.photos[k];
    assert kept.Keys == {"q"};
  }

  /** Deleting a just-created gallery that has no photos gives back the store. */
  lemma CreateThenDeleteGallery(s: Store, ins: InsertGallery, id: Id, now: Timestamp)
    requires id !in s.galleries
    requires forall k :: k in s.photos ==> s.photos[k].galleryId != id
    ensures DeleteGallery(CreateGallery(s, ins, id, now).0, id) == (s, true)
  {
    var s1 := CreateGallery(s, ins, id, now).0;
    var s2 := DeleteGallery(s1, id).0;
    assert s2.galleries == s.galleries;
    assert s2.photos == s.photos;
  }

  /** Updating with an empty patch changes nothing. */
  lemma EmptyGalleryPatchKeepsStore(s: Store, id: Id)
    ensures UpdateGallery(s, id, EmptyGalleryPatch).0 == s
  {
  }

  /**
   * A partial update may carry an `id` property: it is stored under the old
   * key with the new `id`, so a well-keyed store stops being well-keyed.
   */
  lemma UpdateCanBreakKeying(s: Store, id: Id, other: Id)
    requires WellKeyed(s) && id in s.galleries && other != id
    ensures var s' := UpdateGallery(s, id, EmptyGalleryPatch.(id := Some(other))).0;
      && id in s'.galleries && s'.galleries[id].id == other
      && !WellKeyed(s')
  {
  }

  /**
   * `getGalleries`: every stored gallery once, in non-decreasing `order`.
   * `ks` is the enumeration of keys the list was read from.
   */
  method GetGalleries(s: Store) returns (r: seq<Gallery>, ghost ks: seq<Id>)
    ensures Enumerates(ks, s.galleries)
    ensures |r| == |ks| == |s.galleries|
    ensures forall i :: 0 <= i < |r| ==> r[i] == s.galleries[ks[i]]
    ensures SortedBy(r, (g: Gallery) => g.order)
  {
    var keys := EnumerateKeys(s.galleries);
    var sorted := SortKeysBy(keys, s.galleries, (g: Gallery) => g.order);
    r := ValuesAt(sorted, s.galleries);
    ks := sorted;
  }

  /**
   * `getGalleryBySlug`: a gallery carrying `slug`, or `None` exactly when no
   * stored gallery carries it. Which of several such galleries is returned
   * depends on the map's insertion order and is left open.
   */
  method GetGalleryBySlug(s: Store, slug: string) returns (r: Option<Gallery>)
    ensures r.None? <==> forall k :: k in s.galleries ==> s.galleries[k].slug != slug
    ensures r.Some? ==> r.value.slug == slug && r.value in s.galleries.Values
  {
    var keys := EnumerateKeys(s.galleries);
    var i := 0;
    while i < |keys|
      invariant 0 <= i <= |keys|
      invariant forall j :: 0 <= j < i ==> s.galleries[keys[j]].slug != slug
    {
      var g := s.galleries[keys[i]];
      if g.slug == slug {
        return Some(g);
      }
      i := i + 1;
    }
    return None;
  }

  // ------------------------------------------------------------------- photos

  /** `getPhoto`: the photo stored under `id`, if any. */
  function GetPhoto(s: Store, id: Id): (r: Option<Photo>)
    ensures r.Some? <==> id in s.photos
    ensures r.Some? ==> r.value == s.photos[id]
  {
    if id in s.photos then Some(s.photos[id]) else None
  }

  /** The record `createPhoto` builds from an insert shape. */
  function NewPhoto(ins: InsertPhoto, id: Id, now: Timestamp): (ph: Photo)
    ensures ph.id == id && ph.galleryId == ins.galleryId
    ensures ph.filename == ins.filename && ph.originalName == ins.originalName
    ensures ph.url == ins.url
    ensures ph.order == ins.order.GetOr(0)
    ensures ph.createdAt == Some(now)
  {
    Photo(id, ins.galleryId, ins.filename, ins.originalName, ins.url,
          OrderOrZero(ins.order), Some(now))
  }

  /** `createPhoto` with the fresh id `id` and creation time `now`. */
  function CreatePhoto(s: Store, ins: InsertPhoto, id: Id, now: Timestamp): (r: (Store, Photo))
    requires id !in s.photos
    ensures r.1 == NewPhoto(ins, id, now)
    ensures r.0.photos.Keys == s.photos.Keys + {id}
    ensures r.0.photos[id] == r.1
    ensures forall k :: k in s.photos ==> r.0.photos[k] == s.photos[k]
    ensures r.0.galleries == s.galleries && r.0.settings == s.settings
    ensures WellKeyed(s) ==> WellKeyed(r.0)
  {
    var ph := NewPhoto(ins, id, now);
    var ps := s.photos[id := ph];
    assert ps.Keys == s.photos.Keys + {id};
    assert WellKeyed(s) ==> WellKeyed(s.(photos := ps)) by {
      if WellKeyed(s) {
        forall k | k in ps ensures ps[k].id == k {
          if k != id { assert ps[k] == s.photos[k]; }
        }
      }
    }
    (s.(photos := ps), ph)
  }

  /** `updatePhoto`: shallow merge under the same key, or nothing when absent. */
  function UpdatePhoto(s: Store, id: Id, p: PhotoPatch): (r: (Store, Option<Photo>))
    ensures id !in s.photos ==> r.0 == s && r.1 == None
    ensures id in s.photos ==>
      && r.1 == Some(MergePhoto(s.photos[id], p))
      && r.0.photos.Keys == s.photos.Keys
      && r.0.photos[id] == r.1.value
    ensures forall k :: k in s.photos && k != id ==> r.0.photos[k] == s.photos[k]
    ensures r.0.galleries == s.galleries && r.0.settings == s.settings
    ensures WellKeyed(s) && (p.id == None || p.id == Some(id)) ==> WellKeyed(r.0)
  {
    if id !in s.photos then (s, None)
    else
      var ph := MergePhoto(s.photos[id], p);
      (s.(photos := s.photos[id := ph]), Some(ph))
  }

  /** `deletePhoto`: removes the photo stored under `id`; true iff it was there. */
  function DeletePhoto(s: Store, id: Id): (r: (Store, bool))
    ensures r.1 <==> id in s.photos
    ensures r.0.photos.Keys == s.photos.Keys - {id}
    ensures forall k :: k in r.0.photos ==> r.0.photos[k] == s.photos[k]
    ensures r.0.galleries == s.galleries && r.0.settings == s.settings
    ensures WellKeyed(s) ==> WellKeyed(r.0)
  {
    (s.(photos := s.photos - {id}), id in s.photos)
  }

  /** `updatePhotoOrder`: sets one photo's `order`; false and no change when absent. */
  function UpdatePhotoOrder(s: Store, id: Id, order: int): (r: (Store, bool))
    ensures r.1 <==> id in s.photos
    ensures !r.1 ==> r.0 == s
    ensures r.1 ==>
      && r.0.photos.Keys == s.photos.Keys
      && r.0.photos[id].order == order
      && r.0.photos[id] == s.photos[id].(order := order)
    ensures forall k :: k in s.photos && k != id ==> r.0.photos[k] == s.photos[k]
    ensures r.0.galleries == s.galleries && r.0.settings == s.settings
    ensures WellKeyed(s) ==> WellKeyed(r.0)
  {
    if id !in s.photos then (s, false)
    else (s.(photos := s.photos[id := s.photos[id].(order := order)]), true)
  }

  /**
   * `getPhotosByGallery`: exactly the photos whose `galleryId` is `galleryId`,
   * each once, in non-decreasing `order`.
   */
  method GetPhotosByGallery(s: Store, galleryId: Id) returns (r: seq<Photo>, ghost ks: seq<Id>)
    ensures Distinct(ks)
    ensures forall k :: k in ks ==> k in s.photos && s.photos[k].galleryId == galleryId
    ensures forall k :: k in s.photos && s.photos[k].galleryId == galleryId ==> k in ks
    ensures |r| == |ks|
    ensures forall i :: 0 <= i < |r| ==> r[i] == s.photos[ks[i]]
    ensures SortedBy(r, (ph: Photo) => ph.order)
  {
    var all := EnumerateKeys(s.photos);
    var mine := FilterKeys(all, s.photos, (ph: Photo) => ph.galleryId == galleryId);
    var sorted := SortKeysBy(mine, s.photos, (ph: Photo) => ph.order);
    r := ValuesAt(sorted, s.photos);
    ks := sorted;
  }

  /** Deleting a just-created photo gives back the store. */
  lemma CreateThenDeletePhoto(s: Store, ins: InsertPhoto, id: Id, now: Timestamp)
    requires id !in s.photos
    ensures DeletePhoto(CreatePhoto(s, ins, id, now).0, id) == (s, true)
  {
    var s1 := CreatePhoto(s, ins, id, now).0;
    assert s1.photos - {id} == s.photos;
  }

  /** Setting a photo's order has the same effect on the store as a patch of its `order` alone. */
  lemma PhotoOrderIsOrderPatch(s: Store, id: Id, order: int)
    ensures UpdatePhotoOrder(s, id, order).0 == UpdatePhoto(s, id, EmptyPhotoPatch.(order := Some(order))).0
    ensures UpdatePhotoOrder(s, id, order).1 <==> UpdatePhoto(s, id, EmptyPhotoPatch.(order := Some(order))).1.Some?
  {
  }

  // ----------------------------------------------------------- admin settings

  /** `getAdminSetting`: the setting stored under `key`, if any. */
  function GetAdminSetting(s: Store, key: string): (r: Option<AdminSetting>)
    ensures r.Some? <==> key in s.settings
    ensures r.Some? ==> r.value == s.settings[key]
  {
    if key in s.settings then Some(s.settings[key]) else None
  }

  /**
   * `setAdminSetting`: upsert by key. An existing entry keeps its `id` (unless
   * that id is the empty string, which `||` treats as missing); a new entry
   * takes `freshId`. `updatedAt` is refreshed on every write.
   */
  function SetAdminSetting(s: Store, ins: InsertAdminSetting, freshId: Id, now: Timestamp): (r: (Store, AdminSetting))
    ensures r.1.key == ins.key && r.1.value == ins.value && r.1.updatedAt == Some(now)
    ensures ins.key in s.settings && s.settings[ins.key].id != "" ==> r.1.id == s.settings[ins.key].id
    ensures ins.key !in s.settings ==> r.1.id == freshId
    ensures ins.key in s.settings && s.settings[ins.key].id == "" ==> r.1.id == freshId
    ensures r.0.settings.Keys == s.settings.Keys + {ins.key}
    ensures ins.key in s.settings ==> |r.0.settings| == |s.settings|
    ensures r.0.settings[ins.key] == r.1
    ensures forall k :: k in s.settings && k != ins.key ==> r.0.settings[k] == s.settings[k]
    ensures r.0.galleries == s.galleries && r.0.photos == s.photos
    ensures WellKeyed(s) ==> WellKeyed(r.0)
  {
    var id := if ins.key in s.settings && s.settings[ins.key].id != "" then s.settings[ins.key].id else freshId;
    var setting := AdminSetting(id, ins.key, ins.value, Some(now));
    (s.(settings := s.settings[ins.key := setting]), setting)
  }

  /** Writing one key twice leaves one entry for it, holding the latest value. */
  lemma SetAdminSettingTwice(s: Store, key: string, v1: string, v2: string,
                             id1: Id, id2: Id, t1: Timestamp, t2: Timestamp)
    requires id1 != ""
    ensures var s1 := SetAdminSetting(s, InsertAdminSetting(key, v1), id1, t1).0;
      var s2 := SetAdminSetting(s1, InsertAdminSetting(key, v2), id2, t2).0;
      && |s2.settings| == |s1.settings|
      && GetAdminSetting(s2, key).Some?
      && GetAdminSetting(s2, key).value.value == v2
      && GetAdminSetting(s2, key).value.id == s1.settings[key].id
  {
  }

  // ---------------------------------------------------------------- seed data

  /** The five galleries the store starts with. */
  const DefaultGalleries: seq<InsertGallery> := [
    InsertGallery("Fashion", "fashion", Some("High fashion and editorial photography"), None, Some(1)),
    InsertGallery("Beauty", "beauty", Some("Beauty and cosmetic photography"), None, Some(2)),
    InsertGallery("Travel", "travel", Some("Travel and landscape photography"), None, Some(3)),
    InsertGallery("Portrait", "portrait", Some("Professional portrait photography"), None, Some(4)),
    InsertGallery("Conceptual", "conceptual", Some("Artistic and conceptual photography"), None, Some(5))
  ]

  const DefaultPassword := "100301"

  /** The default galleries are numbered 1 to 5. */
  lemma DefaultOrders(i: int)
    requires 0 <= i < |DefaultGalleries|
    ensures DefaultGalleries[i].order == Some(i + 1)
  {
  }

  /** `createGallery` for each entry of `ins` in turn, with the matching id of `ids`
   * and the matching clock reading of `times`. */
  function CreateGalleries(s: Store, ins: seq<InsertGallery>, ids: seq<Id>, times: seq<Timestamp>): (r: Store)
    requires |ids| == |ins| == |times|
    requires Distinct(ids)
    requires forall k :: k in ids ==> k !in s.galleries
    ensures r == s.(galleries := r.galleries)
    decreases |ins|
  {
    if ins == [] then s
    else
      var s1 := s.(galleries := s.galleries[ids[0] := NewGallery(ins[0], ids[0], times[0])]);
      assert s1 == CreateGallery(s, ins[0], ids[0], times[0]).0;
      assert forall k :: k in ids[1..] ==> k !in s1.galleries by {
        forall k | k in ids[1..] ensures k !in s1.galleries {
          assert k != ids[0];
        }
      }
      CreateGalleries(s1, ins[1..], ids[1..], times[1..])
  }

  /** `CreateGalleries` leaves the old galleries untouched and adds only ids of `ids`. */
  lemma {:induction false} CreateGalleriesKeeps(s: Store, ins: seq<InsertGallery>, ids: seq<Id>, times: seq<Timestamp>)
    requires |ids| == |ins| == |times|
    requires Distinct(ids)
    requires forall k :: k in ids ==> k !in s.galleries
    ensures var r := CreateGalleries(s, ins, ids, times);
      && (forall k :: k in s.galleries ==> k in r.galleries && r.galleries[k] == s.galleries[k])
      && (forall k :: k in r.galleries ==> k in s.galleries || k in ids)
    decreases |ins|
  {
    if ins != [] {
      var s1 := s.(galleries := s.galleries[ids[0] := NewGallery(ins[0], ids[0], times[0])]);
      assert forall k :: k in ids[1..] ==> k !in s1.galleries by {
        forall k | k in ids[1..] ensures k !in s1.galleries {
          assert k != ids[0];
        }
      }
      CreateGalleriesKeeps(s1, ins[1..], ids[1..], times[1..]);
      var r := CreateGalleries(s1, ins[1..], ids[1..], times[1..]);
      forall k | k in r.galleries ensures k in s.galleries || k in ids {
        if k in ids[1..] {
          assert k in ids;
        }
      }
    }
  }

  /** After `CreateGalleries` each new id holds the record built from its insert shape. */
  lemma {:induction false} CreateGalleriesAdds(s: Store, ins: seq<InsertGallery>, ids: seq<Id>, times: seq<Timestamp>)
    requires |ids| == |ins| == |times|
    requires Distinct(ids)
    requires forall k :: k in ids ==> k !in s.galleries
    ensures var r := CreateGalleries(s, ins, ids, times);
      forall i :: 0 <= i < |ids| ==>
        ids[i] in r.galleries && r.galleries[ids[i]] == NewGallery(ins[i], ids[i], times[i])
    decreases |ins|
  {
    if ins != [] {
      var s1 := s.(galleries := s.galleries[ids[0] := NewGallery(ins[0], ids[0], times[0])]);
      assert forall k :: k in ids[1..] ==> k !in s1.galleries by {
        forall k | k in ids[1..] ensures k !in s1.galleries {
          assert k != ids[0];
        }
      }
      CreateGalleriesAdds(s1, ins[1..], ids[1..], times[1..]);
      CreateGalleriesKeeps(s1, ins[1..], ids[1..], times[1..]);
      var r := CreateGalleries(s1, ins[1..], ids[1..], times[1..]);
      forall i | 0 <= i < |ids|
        ensures ids[i] in r.galleries && r.galleries[ids[i]] == NewGallery(ins[i], ids[i], times[i])
      {
        if i > 0 {
          assert ids[i] == ids[1..][i-1] && ins[i] == ins[1..][i-1] && times[i] == times[1..][i-1];
        }
      }
    }
  }

  /** `CreateGalleries` adds exactly one gallery per id. */
  lemma {:induction false} CreateGalleriesSize(s: Store, ins: seq<InsertGallery>, ids: seq<Id>, times: seq<Timestamp>)
    requires |ids| == |ins| == |times|
    requires Distinct(ids)
    requires forall k :: k in ids ==> k !in s.galleries
    ensures |CreateGalleries(s, ins, ids, times).galleries| == |s.galleries| + |ids|
    decreases |ins|
  {
    if ins != [] {
      var s1 := s.(galleries := s.galleries[ids[0] := NewGallery(ins[0], ids[0], times[0])]);
      assert forall k :: k in ids[1..] ==> k !in s1.galleries by {
        forall k | k in ids[1..] ensures k !in s1.galleries {
          assert k != ids[0];
        }
      }
      CreateGalleriesSize(s1, ins[1..], ids[1..], times[1..]);
    }
  }

  /**
   * The constructor: the admin password setting first, then the default
   * galleries in order. `passwordId` and `ids` stand for the `randomUUID`
   * results. The clock is read once per record: `passwordTime` for the
   * setting's `updatedAt`, `times` for each gallery's `createdAt`.
   */
  function Seed(passwordId: Id, passwordTime: Timestamp, ids: seq<Id>, times: seq<Timestamp>): (r: Store)
    requires |ids| == |times| == |DefaultGalleries|
    requires Distinct(ids)
    ensures r.photos == map[]
    ensures r.settings.Keys == {"password"}
    ensures r.settings["password"].value == DefaultPassword
    ensures forall i :: 0 <= i < |ids| ==>
      ids[i] in r.galleries && r.galleries[ids[i]] == NewGallery(DefaultGalleries[i], ids[i], times[i])
    ensures forall k :: k in r.galleries ==> k in ids
    ensures |r.galleries| == |ids|
  {
    var s0 := Store(map[], map[], map["password" := AdminSetting(passwordId, "password", DefaultPassword, Some(passwordTime))]);
    CreateGalleriesKeeps(s0, DefaultGalleries, ids, times);
    CreateGalleriesAdds(s0, DefaultGalleries, ids, times);
    CreateGalleriesSize(s0, DefaultGalleries, ids, times);
    CreateGalleries(s0, DefaultGalleries, ids, times)
  }

  /**
   * A new store holds the five default galleries, numbered 1 to 5 with
   * their default slugs, each under its own id.
   */
  lemma SeedDefaults(passwordId: Id, passwordTime: Timestamp, ids: seq<Id>, times: seq<Timestamp>)
    requires |ids| == |times| == |DefaultGalleries|
    requires Distinct(ids)
    ensures var r := Seed(passwordId, passwordTime, ids, times);
      && |r.galleries| == 5
      && (forall i :: 0 <= i < 5 ==>
            && ids[i] in r.galleries
            && r.galleries[ids[i]].order == i + 1
            && r.galleries[ids[i]].slug == DefaultGalleries[i].slug)
      && WellKeyed(r)
  {
    var r := Seed(passwordId, passwordTime, ids, times);
    forall k | k in r.galleries ensures r.galleries[k].id == k {
      var i :| 0 <= i < |ids| && ids[i] == k;
    }
    forall i | 0 <= i < 5 ensures r.galleries[ids[i]].order == i + 1 {
      DefaultOrders(i);
    }
  }
}
